=== FILE: README.md ===
# Reviewer assignment and pull-request lifecycle

A Dafny model of the use-case layer of a pull-request review service. It covers three engines:

- **Pull-request engine.** Creating a pull request automatically assigns up to two reviewers, drawn from the active teammates of the author. Updating and merging follow the OPEN -> MERGED status guard. A single reviewer can be reassigned to another member of the author's first team.
- **Team engine.** Creating a team adds missing users, updates only the active flag of existing ones, and links every member to the team. Looking up a team is also modelled.
- **User engine.** A user's active flag can be set. A user's review listing gives the pull requests they hold a reviewer row on.

The engines talk to four storage ports: users, teams, pull requests, and the user-to-pull-request ownership rows.

- The ports are modelled as one immutable `State` (`Store.State`).
- Every operation that writes is a pure function from the state and its inputs to an `Outcome`. An outcome is the sequence of port writes the operation performs, in order, plus its result.
- The two pure reads write nothing and return a `Result` instead: `GetTeam`, which takes only the user and team stores (a `Directory`), and `GetUserPullRequests`.
- The state afterwards is `Post(s, o)`: the writes applied one after another. So "nothing was written" is `o.writes == []`.

The source draws its reviewers at random. Here the randomness is an input:

- The shuffle of the candidate pool becomes a permutation `order` of the pool's positions (`IsPermutation`).
- The random index of a reassignment becomes `pick`. It must index the candidate list when that list is non-empty (`CanDraw`).

## Modules

| file | module | contents |
|---|---|---|
| wrappers.dfy | Wrappers | `Option`, `Result` |
| seqs.dfy | Seqs | order-preserving `Filter`, `AllDistinct`, `Min` and their lemmas |
| domain.dfy | Domain | users, teams, roles, statuses, ownership rows, pull requests |
| errors.dfy | Errors | the error taxonomy, with `Joined` and the `Is` test for joined errors |
| store.dfy | Store | the ports: state, writes, reads, referential integrity (`Valid`) |
| pull_request.dfy | PullRequestEngine | CreatePullRequest, UpdatePullRequest, MergePullRequest, ReassignRequest |
| team.dfy | TeamEngine | CreateTeam, GetTeam |
| user.dfy | UserEngine | SetActive, GetUserPullRequests |
| lifecycle.dfy | Lifecycle | invariants kept by every operation and by every run of operations |

The model makes these choices about the ports:

- Team membership is a sequence of link rows, so "the author's first team" and the order of a team listing are defined by link order.
- The pull-request read returns the stored author and fills in the reviewer list from the reviewer rows, in row order.
- A port read fails only with its not-found error.

## Behaviour that follows the code

- **CreatePullRequest stores the request's own status.** The source saves the request before it sets the status to OPEN, so the stored row carries the status the caller sent. Only the returned value is OPEN (`OpeningState`, `OpeningRecordsReviewers`).
- **The candidate pool of CreatePullRequest is not de-duplicated.**
  - A teammate who shares two of the author's teams is listed twice (`SharedTeammateListedTwice`).
  - When that teammate is the only eligible one (pool `[u, u]`), both reviewer places go to them (`DoubledPoolReviewsTwice`). In a larger pool both copies may be drawn, but need not be.
  - A user takes both places only when the pool lists them at least twice (`ReviewerTwiceListedTwice`).
  - So distinct reviewers are promised only for a pool with distinct ids (`CreateAssignsReviewers`).
- **ReassignRequest does not check that the replaced user is a reviewer.**
  - When that user holds no reviewer row, nothing is deleted, and a successful draw adds a reviewer. A pull request can therefore reach three reviewers (`ReassignOfNonReviewerAddsReviewer`).
  - The exclusion set is read after the deletion, so the removed reviewer can be drawn again (`ReassignKeepsRemovedReviewerEligible`).
  - With no candidate, the deletion stands and CannotFindActiveMembers is returned.
- **The review rules** are three separate invariants, each stated under the condition it needs (`Lifecycle.StepKeeps`, `Lifecycle.RunKeeps`):
  - the author never reviews (`AuthorOut`): kept by every command, since both draws exclude the author;
  - no reviewer appears twice (`NoReviewerTwice`): broken only by a duplicate pool, so it is kept when every create's pool lists no id twice (`Lifecycle.DistinctPool`);
  - at most two reviewers (`AtMostTwo`): broken only by reassigning a non-reviewer, so it is kept when every reassignment replaces an actual reviewer or runs while fewer than two reviewers remain (`Lifecycle.ReplacesReviewer`).

  Referential integrity, the freezing of merged pull requests, and one author row per pull request naming its author (`OneAuthorRow`), are kept by every command.

## Model

| member | source | states |
|---|---|---|
| Store.Apply | internal/usecase/usecase.go:27-70 | a user/team write leaves the pull-request and ownership stores alone, and any other write leaves the user/team stores alone |
| Store.ReviewerIds | internal/usecase/usecase.go:47-48 | a user is listed as a reviewer of `id` exactly when it holds a reviewer row on `id`, and the list is no longer than the rows |
| Store.TeamMemberIds | internal/usecase/usecase.go:32-33 | an id is listed for a team exactly when a link row joins it to that team |
| Store.TeamsOf | internal/usecase/usecase.go:36-37 | a team is listed for a user exactly when a link row joins the user to it |
| Store.GetUserByID | internal/usecase/usecase.go:30-31 | the lookup succeeds exactly for a stored id and returns the stored user; otherwise MemberNotFound |
| Store.GetTeamByName | internal/usecase/usecase.go:53-54 | the lookup succeeds exactly for a stored team and returns it with its listing; otherwise TeamNotFound |
| Store.ResolveUsers | internal/usecase/usecase.go:32-33 | every stored id among the given ones yields its user, nothing else is returned, and the result is no longer than the ids |
| Store.TeamListing | internal/usecase/usecase.go:32-33 | a team's listing holds the stored user of every id linked to the team, and only such users |
| Store.GetPullRequestByID | internal/usecase/usecase.go:64-65 | the read succeeds exactly for a stored pull request; it returns the stored id, name, author and status with the reviewers of its reviewer rows; otherwise PullRequestNotFound |
| Store.AuthorRows | internal/usecase/pull_request.go:64 | the author rows of a pull request are exactly the rows with the author role that name it |
| Store.AddedAuthorRows | internal/usecase/pull_request.go:64-101 | saving the author row and then reviewer rows adds that one author row for the new pull request and no author row for any other |
| Store.AuthorRowsWithout | internal/usecase/pull_request.go:203-209 | deleting a reviewer row leaves every pull request's author rows as they were |
| Store.ReviewerIdsWithout | internal/usecase/pull_request.go:203-209 | deleting a reviewer row drops that user from that pull request's reviewers and changes no other reviewer list |
| Store.ResolveKeyedIds | internal/usecase/usecase.go:32-33 | resolving ids that are all stored gives users carrying exactly those ids, in order |
| PullRequestEngine.Eligible | internal/usecase/pull_request.go:83-89 | a user is eligible exactly when it is listed, active and not the author |
| PullRequestEngine.Coworkers | internal/usecase/pull_request.go:75-91 | a user is in the pool exactly when it is active, not the author, and listed in one of the author's teams |
| PullRequestEngine.CreateCandidates | internal/usecase/pull_request.go:69-91 | a user is in the pool exactly when it is active, not the author, and listed in a team the author is linked to |
| PullRequestEngine.Shuffle | internal/usecase/pull_request.go:92 | the shuffled pool is a rearrangement of the pool: every user, and every id, occurs as often as in the pool |
| PullRequestEngine.Rearranged | internal/usecase/pull_request.go:92 | placing xs[order[i]] at each position i, for a permutation `order`, keeps the multiset of `xs` |
| PullRequestEngine.ShuffleKeepsDistinct | internal/usecase/pull_request.go:92 | shuffling a pool with distinct ids keeps them distinct |
| PullRequestEngine.SelectReviewers | internal/usecase/pull_request.go:94-102 | min(2, pool size) reviewers, each the id of a pool member, and no id more often than the pool lists it |
| PullRequestEngine.ReviewerTwiceListedTwice | internal/usecase/pull_request.go:75-102 | a user takes both reviewer places only when the pool lists them at least twice |
| PullRequestEngine.SelectReviewersDistinct | internal/usecase/pull_request.go:94-102 | a pool with distinct ids gives distinct reviewers |
| PullRequestEngine.ReviewerRows | internal/usecase/pull_request.go:95-101 | one row per reviewer, every row naming the new pull request with the reviewer role |
| PullRequestEngine.ApplySaveRows | internal/usecase/pull_request.go:95-101 | saving the rows appends exactly them to the ownership store and changes nothing else |
| PullRequestEngine.SaveReviewerRowsAt | internal/usecase/pull_request.go:95-101 | the i-th reviewer write saves the i-th reviewer's row |
| PullRequestEngine.ReviewerIdsOfRows | internal/usecase/pull_request.go:95-101 | the saved reviewer rows list exactly the chosen reviewers for the new pull request, and none for any other |
| PullRequestEngine.CreatePullRequest | internal/usecase/pull_request.go:29-106 | error precedence: nil request, then a missing author, an inactive author, a duplicate id; none of these writes anything; otherwise the request is opened |
| PullRequestEngine.CreateAssignsReviewers | internal/usecase/pull_request.go:75-105 | on success the result is the request as OPEN, with min(2, pool size) reviewers from the pool, distinct when the pool's ids are |
| PullRequestEngine.SharedTeammateListedTwice | internal/usecase/pull_request.go:75-91 | a teammate eligible in two of the author's teams is listed twice in the pool |
| PullRequestEngine.DoubledPoolReviewsTwice | internal/usecase/pull_request.go:92-102 | for every shuffle, the pool `[u, u]` (one eligible teammate listed twice) assigns u twice |
| PullRequestEngine.Opening | internal/usecase/pull_request.go:59-105 | an opening writes two rows plus one per reviewer, and returns the request as OPEN with exactly the given reviewers |
| PullRequestEngine.Opened | internal/usecase/pull_request.go:59-105 | a create that passed its checks succeeds with an OPEN pull request of min(2, pool size) reviewers, none of them the author, in 2 + min(2, pool size) writes |
| PullRequestEngine.OpeningWrites | internal/usecase/pull_request.go:59-103 | write order: the pull-request row, then the author row, then one reviewer row per returned reviewer, in the returned order |
| PullRequestEngine.OpeningState | internal/usecase/pull_request.go:59-103 | after an opening, the store holds the row as handed in, with the author row and the reviewer rows appended |
| PullRequestEngine.OpeningRecordsReviewers | internal/usecase/pull_request.go:59-105 | reading the new pull request back gives the request with exactly the returned reviewers; other pull requests, users and teams are unchanged |
| PullRequestEngine.OpenedReviewerIds | internal/usecase/pull_request.go:64-101 | appending the author row and reviewer rows of an unknown id gives that id exactly the chosen reviewers, and no other id any new reviewer |
| PullRequestEngine.NoRowsForUnknownPull | internal/usecase/pull_request.go:52-57 | in a consistent store, a pull request that does not exist has no reviewers |
| PullRequestEngine.UpdatePullRequest | internal/usecase/pull_request.go:108-142 | a nil request is AuthorNotFound; a missing id is PullRequestNotFound; a MERGED record comes back as stored with no write; an OPEN one takes the request's status in a single write and is read back |
| PullRequestEngine.MergePullRequest | internal/usecase/pull_request.go:144-169 | a missing id is PullRequestNotFound; MERGED comes back unchanged with no write; OPEN becomes a stored MERGED record that is read back |
| PullRequestEngine.MergeIdempotent | internal/usecase/pull_request.go:160-162 | merging a second time writes nothing and returns what the first merge returned |
| PullRequestEngine.Assigned | internal/usecase/pull_request.go:211-218 | a user is assigned exactly when it holds a row of some role on the pull request |
| PullRequestEngine.ReassignPool | internal/usecase/pull_request.go:203-245 | a user is drawable exactly when it is listed in the author's first team, active, not the author, and holds no row on the pull request once the old reviewer row is deleted |
| PullRequestEngine.Replace | internal/usecase/pull_request.go:203-266 | the old reviewer row is always deleted first; with an empty pool the call fails with CannotFindActiveMembers after that deletion alone; otherwise it succeeds with a reviewer drawn from the pool |
| PullRequestEngine.Reassigning | internal/usecase/pull_request.go:253-266 | two writes; the re-read succeeds exactly when the pull request is stored, and then names the chosen reviewer |
| PullRequestEngine.ReplacementCandidates | internal/usecase/pull_request.go:233-245 | a coworker is a candidate exactly when it is active, not the author and not assigned |
| PullRequestEngine.ReassignRequest | internal/usecase/pull_request.go:171-267 | a missing id is PullRequestNotFound; MERGED yields no result, no error and no write; a missing author is AuthorNotFound and an inactive one AuthorIsInactive, neither writing anything; otherwise the replacement runs |
| PullRequestEngine.ReassigningState | internal/usecase/pull_request.go:203-266 | the old row is deleted and the new reviewer row appended, nothing else changes, and the result is the pull request read back, which lists the new reviewer |
| PullRequestEngine.ReassignChoosesEligible | internal/usecase/pull_request.go:203-266 | the new reviewer is an active member of the author's first team, is not the author, and holds no row left after the deletion; with no candidate, the deletion stands and CannotFindActiveMembers is returned |
| PullRequestEngine.ReassignWriteShape | internal/usecase/pull_request.go:189-259 | ReassignRequest writes nothing, or, on an open pull request, the deletion alone or the deletion followed by a reviewer row for a non-author who is not a remaining reviewer |
| PullRequestEngine.ReassignKeepsRemovedReviewerEligible | internal/usecase/pull_request.go:203-245 | the removed reviewer is back in the candidate list when it is still an active, non-author member of the first team |
| PullRequestEngine.ReassignOfNonReviewerAddsReviewer | internal/usecase/pull_request.go:203-259 | replacing a user with no reviewer row deletes nothing and grows the reviewer list by the new reviewer |
| TeamEngine.Reconciled | internal/usecase/team.go:48-70 | a reconciled member takes the input's active flag; an existing user keeps its stored id and username, and a new one is stored as given |
| TeamEngine.Enrol | internal/usecase/team.go:47-75 | one member: a missing user is stored as given, an existing one keeps everything but the active flag, and one link to the team is appended; no user write when the flag already matches |
| TeamEngine.EnrolAll | internal/usecase/team.go:47-75 | the member loop writes only to the user and team stores |
| TeamEngine.EnrolFirst | internal/usecase/team.go:47-75 | enrolling the first member and then the rest is enrolling them all |
| TeamEngine.EnrolAllKeyed | internal/usecase/team.go:47-75 | the loop keeps every user stored under its own id |
| TeamEngine.EnrolAllTeams | internal/usecase/team.go:47-75 | the loop adds no team |
| TeamEngine.EnrolAllLinks | internal/usecase/team.go:72-74 | the loop appends one link per input member, in input order |
| TeamEngine.EnrolAllUsers | internal/usecase/team.go:48-70 | afterwards, exactly the old users and the members are stored, and every other user is unchanged |
| TeamEngine.EnrolAllReconciles | internal/usecase/team.go:48-70 | with distinct ids, each member is stored as given when new, or as the stored user with the input's active flag |
| TeamEngine.LinksOfMembers | internal/usecase/team.go:72-74 | the appended links list exactly the members' ids for the team |
| TeamEngine.LinksOfShape | internal/usecase/team.go:72-74 | every appended link names the team and one of the members |
| TeamEngine.NoLinksOutsideTeams | internal/usecase/team.go:35-41 | in a consistent store, a team that does not exist has no members |
| TeamEngine.CreateTeam | internal/usecase/team.go:21-83 | error precedence: nil team or empty name, then no members, then an existing team, none of which writes; otherwise the team is saved first and re-read |
| TeamEngine.GetTeam | internal/usecase/team.go:85-101 | a lookup succeeds exactly for a stored team and returns it with its listing; any failure is TeamNotFound |
| TeamEngine.EnrolledListing | internal/usecase/team.go:47-82 | a new team lists exactly the input members in input order, each reconciled when the ids are distinct |
| TeamEngine.CreateThenGetTeam | internal/usecase/team.go:21-101 | a successful CreateTeam returns what GetTeam then returns: the input members, in input order, reconciled; the pull-request stores are untouched |
| UserEngine.SetActive | internal/usecase/user.go:23-45 | a missing user is MemberNotFound with no write; otherwise the user takes the flag, keeps its id and username, and is written back |
| UserEngine.SetActiveIdempotent | internal/usecase/user.go:39-44 | repeating SetActive with the same flag returns the same user and leaves the store as it was |
| UserEngine.ResolveReviewerRows | internal/usecase/user.go:65-75 | succeeds exactly when every reviewer row names a stored pull request; author rows are skipped; order follows the rows; any failure carries PullRequestNotFound |
| UserEngine.GetUserPullRequests | internal/usecase/user.go:47-76 | an unknown user is MemberNotFound; otherwise the reviewed pull requests, as stored, in row order, never more than the rows, or a failure that carries PullRequestNotFound |
| UserEngine.ReviewedIds | internal/usecase/user.go:65-75 | a pull request is listed exactly when some row among the given ones is a reviewer row on it |
| UserEngine.ReviewedIdsOfOwnRows | internal/usecase/user.go:65-75 | among a user's rows, a pull request is listed exactly when the user holds a reviewer row on it |
| UserEngine.UserPullRequestsMatchReviewers | internal/usecase/user.go:61-75 | a pull request is in the user's listing exactly when the user is among its reviewers |
| Lifecycle.OpeningKeeps | internal/usecase/pull_request.go:59-103 | opening keeps referential integrity, frozen merges and one author row per pull request; it keeps the author out when the new reviewers exclude the author, the bound of two when they are at most two, and distinctness when they are distinct |
| Lifecycle.OpeningKeepsAuthorRow | internal/usecase/pull_request.go:59-103 | opening gives the new pull request exactly one author row, naming its author, and leaves every other pull request's single author row |
| Lifecycle.OpeningKeepsValid | internal/usecase/pull_request.go:59-103 | opening keeps referential integrity and changes no merged pull request |
| Lifecycle.OpeningKeepsRules | internal/usecase/pull_request.go:94-103 | each review rule survives an opening whose new reviewers meet it |
| Lifecycle.AddedRowKeeps | internal/usecase/pull_request.go:59-67 | a new row with ownership rows naming it keeps integrity and other pull requests' reviewers |
| Lifecycle.DeleteKeeps | internal/usecase/pull_request.go:203-209 | the deletion keeps integrity and frozen merges, and each review rule and the single author rows when they held before |
| Lifecycle.ReplaceKeeps | internal/usecase/pull_request.go:203-259 | a deletion followed by a save keeps integrity and frozen merges; the reviewers become the remaining ones followed by the new one, no other pull request's reviewers change, and no author row changes |
| Lifecycle.ReplacedReviewers | internal/usecase/pull_request.go:203-259 | how the reviewer list of each pull request changes under the deletion and the save |
| Lifecycle.ReplacedListKeepsRules | internal/usecase/pull_request.go:233-259 | on one reviewer list: a non-author newcomer keeps the author out; a newcomer not among the remaining ids keeps the list distinct; replacing a listed id, or joining fewer than two, keeps it at most two long |
| Lifecycle.ReplaceKeepsReviewRules | internal/usecase/pull_request.go:203-259 | a replacement that is not the author and not a remaining reviewer keeps the author out and the reviewers distinct; it keeps at most two reviewers when the replaced user was a reviewer or there were fewer than two |
| Lifecycle.OneListChanged | internal/usecase/pull_request.go:203-259 | when only one pull request's reviewers change, each review rule carries over once that pull request meets it |
| Lifecycle.AuthorRowsCarried | internal/usecase/pull_request.go:128-131 | a change that keeps every pull request, its author and its author rows keeps one author row per pull request |
| Lifecycle.SameRowsKeepRules | internal/usecase/pull_request.go:128-131 | a change that keeps the ownership rows, the pull requests and their authors keeps each review rule and the single author rows |
| Lifecycle.RestatusKeeps | internal/usecase/pull_request.go:131 | a status change of an open pull request keeps integrity, frozen merges, and each review rule and the single author rows when they held before |
| PullRequestEngine.NotAssignedNotReviewer | internal/usecase/pull_request.go:211-218 | a user with no row on a pull request is none of its reviewers |
| Lifecycle.CreatePullRequestKeeps | internal/usecase/pull_request.go:29-106 | CreatePullRequest keeps integrity, frozen merges, the author out, one author row per pull request and at most two reviewers for every pool; it keeps the reviewers distinct when the pool's ids are distinct |
| Lifecycle.UpdatePullRequestKeeps | internal/usecase/pull_request.go:108-142 | UpdatePullRequest keeps integrity, each review rule and the single author rows when they held before, and every merged pull request unchanged |
| Lifecycle.MergePullRequestKeeps | internal/usecase/pull_request.go:144-169 | MergePullRequest keeps integrity, frozen merges, and each review rule and the single author rows when they held before |
| Lifecycle.ReassignRequestKeeps | internal/usecase/pull_request.go:171-267 | ReassignRequest keeps integrity, frozen merges, the author out, one author row per pull request and the reviewers distinct for every call; it keeps at most two reviewers when it replaces an actual reviewer or fewer than two remain |
| Lifecycle.ReassignWritesKeep | internal/usecase/pull_request.go:203-259 | both write shapes of a reassignment keep integrity, frozen merges, the author out, the single author rows and distinctness; the bound of two needs the replaced user to be a reviewer or fewer than two reviewers |
| Lifecycle.CreateTeamKeeps | internal/usecase/team.go:21-83 | CreateTeam keeps integrity and leaves the pull-request and ownership stores untouched |
| Lifecycle.SetActiveKeeps | internal/usecase/user.go:23-45 | SetActive keeps integrity and leaves the pull-request and ownership stores untouched |
| Lifecycle.StepKeeps | internal/domain/pull_request.go:12-23 | every operation keeps integrity, frozen merges, the author out and one author row per pull request; it keeps at most two reviewers unless it reassigns a non-reviewer with two reviewers present, and distinct reviewers unless it creates from a pool that lists an id twice |
| Lifecycle.FrozenTransitive | internal/usecase/pull_request.go:128-130 | frozen merges compose over consecutive steps |
| Lifecycle.RunKeeps | internal/domain/pull_request.go:12-23 | over any run, integrity holds, merged pull requests never change, the author never reviews and each pull request keeps one author row naming its author; the bound of two holds over runs whose reassignments replace reviewers, and distinctness over runs whose pools are distinct |
| Lifecycle.ReachableStatesKeepRules | internal/domain/pull_request.go:12-23 | every store reachable from the empty store is consistent, has no author reviewing and has exactly one author row per pull request, naming its author; it has at most two reviewers per pull request, and no reviewer twice, under the same two run conditions |

## Left out

- Nil-repository checks and their errors (TeamRepositoryNotFound and the like): the ports are always wired here.
- Port failures other than not-found are not modelled: every port write succeeds and a read fails only with its not-found error. Partial writes left behind by a failure mid-sequence are therefore not modelled either.
- Listing reads (a user's teams, a team's users, the rows of a user or of a pull request) never fail here; an empty listing is an empty sequence. The error branches after those reads (internal/usecase/pull_request.go:70-82 and 211-231, internal/usecase/user.go:62-64) are therefore not reachable in the model.
- The Postgres adapters are not part of this model. Five of their quirks are left out:
  - a pull-request lookup with no row reports PullRequestAlreadyExists;
  - the owner deletion ignores the role;
  - the team lookup returns no team and no error when the team is missing;
  - the pull-request save stores no author;
  - the pull-request read returns neither the author nor the reviewer list. The model's read fills in both (the stored author, and the reviewers from the reviewer rows), and the read-backs of OpeningRecordsReviewers, ReassigningState, UpdatePullRequest and MergePullRequest rest on that.
- Timestamps (`CreatedAt`, `MergedAt`) and request contexts: they carry no engine logic.
- Uniformity of the random shuffle and the random index: the model quantifies over every permutation and index.
- Status values outside OPEN and MERGED: the status type has exactly these two.
- PullRequestEngine.ReassignRequest: requires the author to have a team when the team lookup is reached. The source indexes the first team and would panic on an empty list; no behaviour is invented for that case.
- PullRequestEngine.CreateAssignsReviewers: distinct reviewers are promised only for a pool with distinct ids. The code does not remove the duplicates that shared team membership produces.
- Lifecycle.StepKeeps: distinct reviewers are proved only for commands whose pool lists no id twice, and at most two reviewers only for reassignments that replace a reviewer or find fewer than two. The code breaks each of these outside its condition, as described above; the author's exclusion is proved for every command.
- The HTTP gateway, the generated API helpers and startup: transport only.

=== FILE: domain.dfy ===
/** Entities of the review service: users, teams, pull requests and the
    user-to-pull-request ownership rows. */
module Domain {

  type UserId = string
  type TeamName = string
  type PullRequestId = string

  /** A team member; only active users are picked as reviewers. */
  datatype User = User(id: UserId, username: string, isActive: bool)

  /** A team and its members as the team store lists them. */
  datatype Team = Team(name: TeamName, members: seq<User>)

  datatype Role = Reviewer | Author

  /** One ownership row: `userId` holds `role` on pull request `requestId`. */
  datatype RequestOwner = RequestOwner(userId: UserId, requestId: PullRequestId, role: Role)

  /** OPEN moves to MERGED once; MERGED is terminal. */
  datatype Status = Open | Merged

  /** A pull request together with the ids of its assigned reviewers. */
  datatype PullRequest = PullRequest(
    id: PullRequestId,
    name: string,
    authorId: UserId,
    status: Status,
    reviewers: seq<UserId>)

  /** The ids of `users`, position by position. */
  function Ids(users: seq<User>): (ids: seq<UserId>)
    ensures |ids| == |users|
    ensures forall i :: 0 <= i < |users| ==> ids[i] == users[i].id
  {
    seq(|users|, i requires 0 <= i < |users| => users[i].id)
  }
}

=== FILE: errors.dfy ===
/** The engine's error taxonomy. */
module Errors {

  datatype Error =
    | InvalidTeamName
    | TeamAlreadyExists
    | TeamNotFound
    | MemberNotFound
    | PullRequestNotFound
    | AuthorNotFound
    | PullRequestAlreadyExists
    | AuthorIsInactive
    | CannotFindActiveMembers
    | PullRequestIsMerged
      /** Two errors reported together, as `errors.Join` builds them. */
    | Joined(first: Error, second: Error)

  /** `e` is `target` or carries it inside a join (the `errors.Is` test). */
  predicate Is(e: Error, target: Error) {
    e == target || (e.Joined? && (Is(e.first, target) || Is(e.second, target)))
  }
}

=== FILE: lifecycle.dfy ===
/** The invariants the engines keep: referential integrity of the stores,
    the three review rules (the author never reviews, at most two reviewers,
    no reviewer twice), the single author row of each pull request and the
    freezing of merged pull requests. Each engine
    operation is a `Command`; `Step` applies the writes it performs. Each
    review rule is stated under the condition it actually needs. */
module Lifecycle {
  import opened Wrappers
  import opened Domain
  import opened Seqs
  import opened Store
  import opened PullRequestEngine
  import opened TeamEngine
  import opened UserEngine

  // ------------------------------------------------------------ properties

  /** The author of `id` is none of its reviewers. */
  predicate AuthorOutAt(s: State, id: PullRequestId)
    requires id in s.pulls
  {
    s.pulls[id].authorId !in ReviewerIds(s.owners, id)
  }

  /** `id` has at most two reviewers. */
  predicate AtMostTwoAt(s: State, id: PullRequestId) {
    |ReviewerIds(s.owners, id)| <= 2
  }

  /** No reviewer of `id` is listed twice. */
  predicate NoReviewerTwiceAt(s: State, id: PullRequestId) {
    AllDistinct(ReviewerIds(s.owners, id))
  }

  predicate AuthorOut(s: State) {
    forall id :: id in s.pulls ==> AuthorOutAt(s, id)
  }

  predicate AtMostTwo(s: State) {
    forall id :: id in s.pulls ==> AtMostTwoAt(s, id)
  }

  predicate NoReviewerTwice(s: State) {
    forall id :: id in s.pulls ==> NoReviewerTwiceAt(s, id)
  }

  /** Every pull request has exactly one author row, and it names the
      pull request's author. */
  predicate OneAuthorRow(s: State) {
    forall id :: id in s.pulls ==> AuthorRows(s.owners, id) == [RequestOwner(s.pulls[id].authorId, id, Author)]
  }

  /** Each ownership-row rule that holds before holds after. */
  predicate RulesKept(s: State, s': State) {
    && (AuthorOut(s) ==> AuthorOut(s'))
    && (AtMostTwo(s) ==> AtMostTwo(s'))
    && (NoReviewerTwice(s) ==> NoReviewerTwice(s'))
    && (OneAuthorRow(s) ==> OneAuthorRow(s'))
  }

  /** Every pull request merged in `s` is still there in `s'` with the same
      record and the same reviewers. */
  predicate Frozen(s: State, s': State) {
    forall k :: k in s.pulls && s.pulls[k].status == Merged ==>
      && k in s'.pulls
      && s'.pulls[k] == s.pulls[k]
      && ReviewerIds(s'.owners, k) == ReviewerIds(s.owners, k)
  }

  // ------------------------------------------------- the ownership writes

  /** Opening a new pull request keeps the stores consistent and freezes
      nothing that was merged. */
  lemma OpeningKeepsValid(s: State, req: PullRequest, reviewers: seq<UserId>)
    requires Valid(s)
    requires req.id !in s.pulls
    ensures
      var post := Post(s, Opening(req, reviewers));
      Valid(post) && Frozen(s, post)
  {
    var added := [RequestOwner(req.authorId, req.id, Author)] + ReviewerRows(req.id, reviewers);
    OpeningState(s, req, reviewers);
    assert s.owners + [added[0]] + ReviewerRows(req.id, reviewers) == s.owners + added;
    AddedRowKeeps(s, PullRequestRow(req.id, req.name, req.authorId, req.status), added);
  }

  /** Storing a new pull request row together with ownership rows that all
      name it keeps referential integrity and changes no other pull
      request's reviewers. */
  lemma AddedRowKeeps(s: State, row: PullRequestRow, added: seq<RequestOwner>)
    requires Valid(s)
    requires row.id !in s.pulls
    requires forall o :: o in added ==> o.requestId == row.id
    ensures
      var post := s.(pulls := s.pulls[row.id := row], owners := s.owners + added);
      && Valid(post)
      && Frozen(s, post)
      && forall k :: k in s.pulls ==> ReviewerIds(post.owners, k) == ReviewerIds(s.owners, k)
  {
    var post := s.(pulls := s.pulls[row.id := row], owners := s.owners + added);
    forall o | o in post.owners ensures o.requestId in post.pulls {
      if o !in s.owners {
        assert o in added;
      }
    }
    forall k | k in s.pulls ensures ReviewerIds(post.owners, k) == ReviewerIds(s.owners, k) {
      ReviewerIdsConcat(s.owners, added, k);
      NoRowsForUnknownPull(added, {row.id}, k);
    }
  }

  /** Opening a new pull request keeps each review rule when the new
      reviewers meet it: they exclude the author, are at most two, are
      distinct. */
  lemma OpeningKeepsRules(s: State, req: PullRequest, reviewers: seq<UserId>)
    requires Valid(s)
    requires req.id !in s.pulls
    ensures
      var post := Post(s, Opening(req, reviewers));
      && (AuthorOut(s) && req.authorId !in reviewers ==> AuthorOut(post))
      && (AtMostTwo(s) && |reviewers| <= 2 ==> AtMostTwo(post))
      && (NoReviewerTwice(s) && AllDistinct(reviewers) ==> NoReviewerTwice(post))
  {
    OpeningRecordsReviewers(s, req, reviewers);
    var post := Post(s, Opening(req, reviewers));
    if AuthorOut(s) && req.authorId !in reviewers {
      forall k | k in post.pulls ensures AuthorOutAt(post, k) {
        if k != req.id {
          assert AuthorOutAt(s, k);
        }
      }
    }
    if AtMostTwo(s) && |reviewers| <= 2 {
      forall k | k in post.pulls ensures AtMostTwoAt(post, k) {
        if k != req.id {
          assert AtMostTwoAt(s, k);
        }
      }
    }
    if NoReviewerTwice(s) && AllDistinct(reviewers) {
      forall k | k in post.pulls ensures NoReviewerTwiceAt(post, k) {
        if k != req.id {
          assert NoReviewerTwiceAt(s, k);
        }
      }
    }
  }

  /** Opening a new pull request adds exactly one author row, for the new
      pull request and naming its author; every other author row stays. */
  lemma OpeningKeepsAuthorRow(s: State, req: PullRequest, reviewers: seq<UserId>)
    requires Valid(s)
    requires req.id !in s.pulls
    ensures
      var post := Post(s, Opening(req, reviewers));
      OneAuthorRow(s) ==> OneAuthorRow(post)
  {
    var post := Post(s, Opening(req, reviewers));
    var author := RequestOwner(req.authorId, req.id, Author);
    var rows := ReviewerRows(req.id, reviewers);
    OpeningState(s, req, reviewers);
    if OneAuthorRow(s) {
      forall k | k in post.pulls
        ensures AuthorRows(post.owners, k) == [RequestOwner(post.pulls[k].authorId, k, Author)]
      {
        AddedAuthorRows(s.owners, author, rows, k);
        if k == req.id {
          AuthorRowsNone(s.owners, k);
        } else {
          assert k in s.pulls;
        }
      }
    }
  }

  /** Opening, all three parts together. */
  lemma OpeningKeeps(s: State, req: PullRequest, reviewers: seq<UserId>)
    requires Valid(s)
    requires req.id !in s.pulls
    ensures
      var post := Post(s, Opening(req, reviewers));
      && Valid(post)
      && Frozen(s, post)
      && (AuthorOut(s) && req.authorId !in reviewers ==> AuthorOut(post))
      && (AtMostTwo(s) && |reviewers| <= 2 ==> AtMostTwo(post))
      && (NoReviewerTwice(s) && AllDistinct(reviewers) ==> NoReviewerTwice(post))
      && (OneAuthorRow(s) ==> OneAuthorRow(post))
  {
    OpeningKeepsValid(s, req, reviewers);
    OpeningKeepsRules(s, req, reviewers);
    OpeningKeepsAuthorRow(s, req, reviewers);
  }

  /** Deleting the reviewer row of `userId` on an open pull request keeps
      every invariant. */
  lemma DeleteKeeps(s: State, id: PullRequestId, userId: UserId)
    requires Valid(s)
    requires id in s.pulls && s.pulls[id].status == Open
    ensures
      var post := s.(owners := Without(s.owners, Replaced(id, userId)));
      && Valid(post)
      && Frozen(s, post)
      && RulesKept(s, post)
  {
    var post := s.(owners := Without(s.owners, Replaced(id, userId)));
    forall k | k in s.pulls
      ensures ReviewerIds(post.owners, k) == if k == id then Drop(ReviewerIds(s.owners, k), userId) else ReviewerIds(s.owners, k)
      ensures AuthorOut(s) ==> AuthorOutAt(post, k)
      ensures AtMostTwo(s) ==> AtMostTwoAt(post, k)
      ensures NoReviewerTwice(s) ==> NoReviewerTwiceAt(post, k)
      ensures AuthorRows(post.owners, k) == AuthorRows(s.owners, k)
    {
      ReviewerIdsWithout(s.owners, Replaced(id, userId), k);
      AuthorRowsWithout(s.owners, Replaced(id, userId), k);
      assert AuthorOut(s) ==> AuthorOutAt(s, k);
      assert AtMostTwo(s) ==> AtMostTwoAt(s, k);
      if NoReviewerTwice(s) && k == id {
        assert NoReviewerTwiceAt(s, k);
        FilterDistinct((y: UserId) => y != userId, ReviewerIds(s.owners, k));
      }
    }
  }

  /** Replacing `userId` by `newId` on an open pull request keeps the stores
      consistent and the merged pull requests frozen; the reviewers of `id`
      lose `userId` and gain `newId` at the end, and no other pull request's
      reviewers change. */
  lemma ReplaceKeeps(s: State, id: PullRequestId, userId: UserId, newId: UserId)
    requires Valid(s)
    requires id in s.pulls && s.pulls[id].status == Open
    ensures
      var row := RequestOwner(newId, id, Reviewer);
      var post := s.(owners := Without(s.owners, Replaced(id, userId)) + [row]);
      && Valid(post)
      && Frozen(s, post)
      && ReviewerIds(post.owners, id) == Drop(ReviewerIds(s.owners, id), userId) + [newId]
      && (forall k :: k in s.pulls && k != id ==> ReviewerIds(post.owners, k) == ReviewerIds(s.owners, k))
      && (forall k :: AuthorRows(post.owners, k) == AuthorRows(s.owners, k))
  {
    var row := RequestOwner(newId, id, Reviewer);
    var mid := s.(owners := Without(s.owners, Replaced(id, userId)));
    var post := mid.(owners := mid.owners + [row]);
    ReplacedReviewers(s.owners, id, userId, newId, id);
    forall k | k != id
      ensures ReviewerIds(post.owners, k) == ReviewerIds(s.owners, k)
    {
      ReplacedReviewers(s.owners, id, userId, newId, k);
    }
    forall k
      ensures AuthorRows(post.owners, k) == AuthorRows(s.owners, k)
    {
      AuthorRowsWithout(s.owners, Replaced(id, userId), k);
      AuthorRowsConcat(mid.owners, [row], k);
    }
    forall o | o in post.owners
      ensures o.requestId in post.pulls
    {
      if o != row {
        assert o in mid.owners;
        assert o in s.owners;
      }
    }
  }

  /** Reviewer lists after deleting `userId`'s reviewer row on `id` and
      appending one for `newId`. */
  lemma ReplacedReviewers(owners: seq<RequestOwner>, id: PullRequestId, userId: UserId, newId: UserId, k: PullRequestId)
    ensures ReviewerIds(Without(owners, Replaced(id, userId)) + [RequestOwner(newId, id, Reviewer)], k) ==
      if k == id then Drop(ReviewerIds(owners, id), userId) + [newId] else ReviewerIds(owners, k)
  {
    ReviewerIdsWithout(owners, Replaced(id, userId), k);
    ReviewerIdsConcat(Without(owners, Replaced(id, userId)), [RequestOwner(newId, id, Reviewer)], k);
  }

  /** On the reviewer list itself, dropping `userId` and appending `newId`
      keeps each rule under its own condition: the author stays out when
      `newId` is not the author; the list stays distinct when `newId` is not
      among the remaining ids; it stays at most two long when `userId` was
      on it or it was shorter than two. */
  lemma ReplacedListKeepsRules(before: seq<UserId>, userId: UserId, newId: UserId, authorId: UserId)
    ensures
      var after := Drop(before, userId) + [newId];
      && (authorId !in before && newId != authorId ==> authorId !in after)
      && (|before| <= 2 && (userId in before || |before| < 2) ==> |after| <= 2)
      && (AllDistinct(before) && newId !in Drop(before, userId) ==> AllDistinct(after))
  {
    var kept := Drop(before, userId);
    if AllDistinct(before) && newId !in kept {
      FilterDistinct((y: UserId) => y != userId, before);
      DistinctSnoc(kept, newId);
    }
    if userId in before {
      FilterDrops((y: UserId) => y != userId, before, userId);
    }
  }

  /** The replacement keeps the author out and the reviewers distinct when
      `newId` is not the author and not among the remaining reviewers; it
      keeps at most two reviewers when, in addition, `userId` was a reviewer
      or there were fewer than two. */
  lemma ReplaceKeepsReviewRules(s: State, id: PullRequestId, userId: UserId, newId: UserId)
    requires Valid(s)
    requires id in s.pulls && s.pulls[id].status == Open
    requires newId != s.pulls[id].authorId
    requires newId !in Drop(ReviewerIds(s.owners, id), userId)
    ensures
      var post := s.(owners := Without(s.owners, Replaced(id, userId)) + [RequestOwner(newId, id, Reviewer)]);
      && (AuthorOut(s) ==> AuthorOut(post))
      && (NoReviewerTwice(s) ==> NoReviewerTwice(post))
      && (AtMostTwo(s) && (Replaced(id, userId) in s.owners || |ReviewerIds(s.owners, id)| < 2) ==> AtMostTwo(post))
  {
    var post := s.(owners := Without(s.owners, Replaced(id, userId)) + [RequestOwner(newId, id, Reviewer)]);
    ReplaceKeeps(s, id, userId, newId);
    ReplacedListKeepsRules(ReviewerIds(s.owners, id), userId, newId, s.pulls[id].authorId);
    assert AuthorOut(s) ==> AuthorOutAt(s, id);
    assert AtMostTwo(s) ==> AtMostTwoAt(s, id);
    assert NoReviewerTwice(s) ==> NoReviewerTwiceAt(s, id);
    OneListChanged(s, post, id);
  }

  /** When only `id`'s reviewers change, each review rule carries over from
      `s` to `s'` as soon as `id` meets it in `s'`. */
  lemma OneListChanged(s: State, s': State, id: PullRequestId)
    requires s'.pulls == s.pulls && id in s.pulls
    requires forall k :: k in s.pulls && k != id ==> ReviewerIds(s'.owners, k) == ReviewerIds(s.owners, k)
    ensures AuthorOut(s) && AuthorOutAt(s', id) ==> AuthorOut(s')
    ensures AtMostTwo(s) && AtMostTwoAt(s', id) ==> AtMostTwo(s')
    ensures NoReviewerTwice(s) && NoReviewerTwiceAt(s', id) ==> NoReviewerTwice(s')
  {
    forall k | k in s'.pulls && k != id
      ensures AuthorOut(s) ==> AuthorOutAt(s', k)
      ensures AtMostTwo(s) ==> AtMostTwoAt(s', k)
      ensures NoReviewerTwice(s) ==> NoReviewerTwiceAt(s', k)
    {
      assert AuthorOut(s) ==> AuthorOutAt(s, k);
      assert AtMostTwo(s) ==> AtMostTwoAt(s, k);
      assert NoReviewerTwice(s) ==> NoReviewerTwiceAt(s, k);
    }
  }

  /** A change that keeps the pull requests, their authors and their
      author rows keeps one author row per pull request. */
  lemma AuthorRowsCarried(s: State, s': State)
    requires OneAuthorRow(s)
    requires s'.pulls.Keys == s.pulls.Keys
    requires forall k :: k in s.pulls ==> s'.pulls[k].authorId == s.pulls[k].authorId
    requires forall k :: k in s.pulls ==> AuthorRows(s'.owners, k) == AuthorRows(s.owners, k)
    ensures OneAuthorRow(s')
  {
    forall k | k in s'.pulls
      ensures AuthorRows(s'.owners, k) == [RequestOwner(s'.pulls[k].authorId, k, Author)]
    {
      assert k in s.pulls;
    }
  }

  /** A change that keeps the ownership rows, the pull requests and their
      authors keeps each ownership-row rule. */
  lemma SameRowsKeepRules(s: State, s': State)
    requires s'.owners == s.owners
    requires s'.pulls.Keys == s.pulls.Keys
    requires forall k :: k in s.pulls ==> s'.pulls[k].authorId == s.pulls[k].authorId
    ensures RulesKept(s, s')
  {
    forall k | k in s'.pulls
      ensures AuthorOut(s) ==> AuthorOutAt(s', k)
      ensures AtMostTwo(s) ==> AtMostTwoAt(s', k)
      ensures NoReviewerTwice(s) ==> NoReviewerTwiceAt(s', k)
    {
      assert k in s.pulls;
      assert AuthorOut(s) ==> AuthorOutAt(s, k);
      assert AtMostTwo(s) ==> AtMostTwoAt(s, k);
      assert NoReviewerTwice(s) ==> NoReviewerTwiceAt(s, k);
    }
    if OneAuthorRow(s) {
      AuthorRowsCarried(s, s');
    }
  }

  /** Changing the status of an open pull request keeps every invariant. */
  lemma RestatusKeeps(s: State, id: PullRequestId, status: Status)
    requires Valid(s)
    requires id in s.pulls && s.pulls[id].status == Open
    ensures
      var post := s.(pulls := s.pulls[id := s.pulls[id].(status := status)]);
      && Valid(post)
      && Frozen(s, post)
      && RulesKept(s, post)
  {
    var post := s.(pulls := s.pulls[id := s.pulls[id].(status := status)]);
    SameRowsKeepRules(s, post);
  }

  // ------------------------------------------------------ the operations

  /** CreatePullRequest keeps integrity, frozen merges, the author's
      exclusion, the single author rows and the bound of two; it keeps the
      reviewers distinct when the candidate pool lists no id twice, since the
      author's teams may share members. */
  lemma CreatePullRequestKeeps(s: State, request: Option<PullRequest>, order: seq<nat>)
    requires Valid(s)
    requires CanShuffle(s, request, order)
    ensures
      var post := Post(s, CreatePullRequest(s, request, order));
      && Valid(post)
      && Frozen(s, post)
      && (AuthorOut(s) ==> AuthorOut(post))
      && (AtMostTwo(s) ==> AtMostTwo(post))
      && (&& NoReviewerTwice(s)
          && (request.Some? ==> AllDistinct(Ids(CreateCandidates(s.directory, request.value.authorId))))
          ==> NoReviewerTwice(post))
      && (OneAuthorRow(s) ==> OneAuthorRow(post))
  {
    var o := CreatePullRequest(s, request, order);
    if o.writes != [] {
      var req := request.value;
      var pool := CreateCandidates(s.directory, req.authorId);
      var reviewers := SelectReviewers(pool, order);
      assert o == Opening(req, reviewers);
      OpeningKeeps(s, req, reviewers);
      assert req.authorId !in reviewers;
      if AllDistinct(Ids(pool)) {
        SelectReviewersDistinct(pool, order);
      }
    }
  }

  /** UpdatePullRequest keeps every invariant. */
  lemma UpdatePullRequestKeeps(s: State, request: Option<PullRequest>)
    requires Valid(s)
    ensures
      var post := Post(s, PullRequestEngine.UpdatePullRequest(s, request));
      && Valid(post)
      && Frozen(s, post)
      && RulesKept(s, post)
  {
    if request.Some? && request.value.id in s.pulls && s.pulls[request.value.id].status == Open {
      RestatusKeeps(s, request.value.id, request.value.status);
    }
  }

  /** MergePullRequest keeps every invariant. */
  lemma MergePullRequestKeeps(s: State, id: PullRequestId)
    requires Valid(s)
    ensures
      var post := Post(s, MergePullRequest(s, id));
      && Valid(post)
      && Frozen(s, post)
      && RulesKept(s, post)
  {
    if id in s.pulls && s.pulls[id].status == Open {
      RestatusKeeps(s, id, Merged);
    }
  }

  /** ReassignRequest keeps the stores consistent, the merged pull requests
      frozen, the author out, the single author rows and the reviewers
      distinct; it keeps at most two
      reviewers when the replaced user is a reviewer of the pull request or it
      has fewer than two reviewers. */
  lemma ReassignRequestKeeps(s: State, id: PullRequestId, userId: UserId, pick: nat)
    requires Valid(s)
    requires CanDraw(s, id, userId, pick)
    ensures
      var post := Post(s, ReassignRequest(s, id, userId, pick));
      && Valid(post)
      && Frozen(s, post)
      && (AuthorOut(s) ==> AuthorOut(post))
      && (NoReviewerTwice(s) ==> NoReviewerTwice(post))
      && (OneAuthorRow(s) ==> OneAuthorRow(post))
      && (&& AtMostTwo(s)
          && (id in s.pulls ==> Replaced(id, userId) in s.owners || |ReviewerIds(s.owners, id)| < 2)
          ==> AtMostTwo(post))
  {
    var ws := ReassignRequest(s, id, userId, pick).writes;
    ReassignWriteShape(s, id, userId, pick);
    if ws != [] {
      ReassignWritesKeep(s, id, userId, ws);
    }
  }

  /** The two write shapes ReassignRequest can produce keep the invariants. */
  lemma ReassignWritesKeep(s: State, id: PullRequestId, userId: UserId, ws: seq<Write>)
    requires Valid(s)
    requires id in s.pulls && s.pulls[id].status == Open
    requires 1 <= |ws| <= 2 && ws[0] == DeleteRequestOwner(Replaced(id, userId))
    requires |ws| == 2 ==>
      && ws[1].SaveRequestOwner?
      && var r := ws[1].owner;
      && r.requestId == id && r.role == Reviewer
      && r.userId != s.pulls[id].authorId
      && r.userId !in ReviewerIds(Without(s.owners, Replaced(id, userId)), id)
    ensures
      var post := ApplyAll(s, ws);
      && Valid(post)
      && Frozen(s, post)
      && (AuthorOut(s) ==> AuthorOut(post))
      && (NoReviewerTwice(s) ==> NoReviewerTwice(post))
      && (OneAuthorRow(s) ==> OneAuthorRow(post))
      && (&& AtMostTwo(s)
          && (Replaced(id, userId) in s.owners || |ReviewerIds(s.owners, id)| < 2)
          ==> AtMostTwo(post))
  {
    var deletion := ws[0];
    var mid := s.(owners := Without(s.owners, Replaced(id, userId)));
    if |ws| == 1 {
      ApplyFew(s, deletion, deletion);
      assert ws == [deletion];
      assert ApplyAll(s, ws) == mid;
      DeleteKeeps(s, id, userId);
    } else {
      var r := ws[1].owner;
      var save := SaveRequestOwner(RequestOwner(r.userId, id, Reviewer));
      ApplyFew(s, deletion, save);
      assert ws == [deletion, save];
      assert Apply(s, deletion) == mid;
      var post := mid.(owners := mid.owners + [RequestOwner(r.userId, id, Reviewer)]);
      assert ApplyAll(s, ws) == post;
      ReplaceKeeps(s, id, userId, r.userId);
      ReviewerIdsWithout(s.owners, Replaced(id, userId), id);
      ReplaceKeepsReviewRules(s, id, userId, r.userId);
      if OneAuthorRow(s) {
        forall k | k in post.pulls
          ensures AuthorRows(post.owners, k) == [RequestOwner(post.pulls[k].authorId, k, Author)]
        {
          assert AuthorRows(post.owners, k) == AuthorRows(s.owners, k);
        }
      }
    }
  }

  /** CreateTeam touches only the user and team stores and keeps them
      consistent. */
  lemma CreateTeamKeeps(s: State, team: Option<Team>, members: seq<User>)
    requires Valid(s)
    ensures
      var post := Post(s, CreateTeam(s, team, members));
      && Valid(post)
      && post.pulls == s.pulls
      && post.owners == s.owners
  {
    var o := CreateTeam(s, team, members);
    if o.writes != [] {
      var name := team.value.name;
      var s1 := Apply(s, SaveTeam(name));
      var rest := EnrolAll(s1, name, members);
      assert o.writes == [SaveTeam(name)] + rest;
      ApplyAllConcat(s, [SaveTeam(name)], rest);
      ApplyFew(s, SaveTeam(name), SaveTeam(name));
      EnrolAllLinks(s1, name, members);
      EnrolAllKeyed(s1, name, members);
      EnrolAllUsers(s1, name, members);
      LinksOfShape(name, members);
    }
  }

  /** SetActive touches only the user store and keeps it consistent. */
  lemma SetActiveKeeps(s: State, id: UserId, active: bool)
    requires Valid(s)
    ensures
      var post := Post(s, SetActive(s, id, active));
      && Valid(post)
      && post.pulls == s.pulls
      && post.owners == s.owners
  {
  }

  // ------------------------------------------------------------------ runs

  /** One call of an engine operation, with the random choices it makes. */
  datatype Command =
    | CreatePull(request: Option<PullRequest>, order: seq<nat>)
    | UpdatePull(request: Option<PullRequest>)
    | MergePull(id: PullRequestId)
    | Reassign(id: PullRequestId, userId: UserId, pick: nat)
    | AddTeam(team: Option<Team>, members: seq<User>)
    | SetUserActive(userId: UserId, active: bool)

  /** The random choices fit the state the command runs in. */
  predicate Admissible(s: State, c: Command) {
    match c
    case CreatePull(request, order) => CanShuffle(s, request, order)
    case Reassign(id, userId, pick) => CanDraw(s, id, userId, pick)
    case _ => true
  }

  /** The condition distinct reviewers need: a create whose candidate pool
      lists no id twice. Other commands meet it. */
  predicate DistinctPool(s: State, c: Command) {
    match c
    case CreatePull(request, _) =>
      request.Some? ==> AllDistinct(Ids(CreateCandidates(s.directory, request.value.authorId)))
    case _ => true
  }

  /** The condition the bound of two needs: a reassignment that replaces an
      actual reviewer, or leaves room for one more. Other commands meet it. */
  predicate ReplacesReviewer(s: State, c: Command) {
    match c
    case Reassign(id, userId, _) =>
      id in s.pulls ==> Replaced(id, userId) in s.owners || |ReviewerIds(s.owners, id)| < 2
    case _ => true
  }

  /** The store after the command's writes. */
  function Step(s: State, c: Command): State
    requires Admissible(s, c)
  {
    match c
    case CreatePull(request, order) => Post(s, CreatePullRequest(s, request, order))
    case UpdatePull(request) => Post(s, PullRequestEngine.UpdatePullRequest(s, request))
    case MergePull(id) => Post(s, MergePullRequest(s, id))
    case Reassign(id, userId, pick) => Post(s, ReassignRequest(s, id, userId, pick))
    case AddTeam(team, members) => Post(s, CreateTeam(s, team, members))
    case SetUserActive(userId, active) => Post(s, SetActive(s, userId, active))
  }

  /** Every command keeps the stores consistent, merged pull requests frozen,
      the author out of the reviewers and one author row per pull request;
      the other two rules hold under their own conditions. */
  lemma StepKeeps(s: State, c: Command)
    requires Valid(s) && Admissible(s, c)
    ensures Valid(Step(s, c)) && Frozen(s, Step(s, c))
    ensures AuthorOut(s) ==> AuthorOut(Step(s, c))
    ensures OneAuthorRow(s) ==> OneAuthorRow(Step(s, c))
    ensures AtMostTwo(s) && ReplacesReviewer(s, c) ==> AtMostTwo(Step(s, c))
    ensures NoReviewerTwice(s) && DistinctPool(s, c) ==> NoReviewerTwice(Step(s, c))
  {
    match c
    case CreatePull(request, order) => CreatePullRequestKeeps(s, request, order);
    case UpdatePull(request) => UpdatePullRequestKeeps(s, request);
    case MergePull(id) => MergePullRequestKeeps(s, id);
    case Reassign(id, userId, pick) => ReassignRequestKeeps(s, id, userId, pick);
    case AddTeam(team, members) => CreateTeamKeeps(s, team, members);
    case SetUserActive(userId, active) => SetActiveKeeps(s, userId, active);
  }

  /** Each command is admissible in the state the ones before it left. */
  predicate Runnable(s: State, cs: seq<Command>)
    decreases |cs|
  {
    cs == [] || (Admissible(s, cs[0]) && Runnable(Step(s, cs[0]), cs[1..]))
  }

  function Run(s: State, cs: seq<Command>): State
    requires Runnable(s, cs)
    decreases |cs|
  {
    if cs == [] then s else Run(Step(s, cs[0]), cs[1..])
  }

  /** Each command meets `cond` in the state the ones before it left. */
  predicate Throughout(s: State, cs: seq<Command>, cond: (State, Command) -> bool)
    requires Runnable(s, cs)
    decreases |cs|
  {
    cs == [] || (cond(s, cs[0]) && Throughout(Step(s, cs[0]), cs[1..], cond))
  }

  lemma FrozenTransitive(s1: State, s2: State, s3: State)
    requires Frozen(s1, s2) && Frozen(s2, s3)
    ensures Frozen(s1, s3)
  {
  }

  /** Over any run the stores stay consistent, a merged pull request never
      changes again, the author never reviews and each pull request keeps
      one author row; the bound of two holds over
      runs whose reassignments replace reviewers, and distinct reviewers over
      runs whose pools are distinct. */
  lemma {:induction false} RunKeeps(s: State, cs: seq<Command>)
    requires Valid(s) && Runnable(s, cs)
    ensures Valid(Run(s, cs)) && Frozen(s, Run(s, cs))
    ensures AuthorOut(s) ==> AuthorOut(Run(s, cs))
    ensures OneAuthorRow(s) ==> OneAuthorRow(Run(s, cs))
    ensures AtMostTwo(s) && Throughout(s, cs, ReplacesReviewer) ==> AtMostTwo(Run(s, cs))
    ensures NoReviewerTwice(s) && Throughout(s, cs, DistinctPool) ==> NoReviewerTwice(Run(s, cs))
    decreases |cs|
  {
    if cs != [] {
      var s1 := Step(s, cs[0]);
      StepKeeps(s, cs[0]);
      RunKeeps(s1, cs[1..]);
      FrozenTransitive(s, s1, Run(s1, cs[1..]));
    }
  }

  /** The empty store. */
  function Empty(): State {
    State(Directory(map[], {}, []), map[], [])
  }

  /** Every store reachable from the empty store is consistent, has no
      author reviewing and one author row per pull request, naming its
      author; it has at most two reviewers per pull request when the
      run's reassignments replace reviewers, and no reviewer twice when the
      run's pools are distinct. */
  lemma ReachableStatesKeepRules(cs: seq<Command>)
    requires Runnable(Empty(), cs)
    ensures Valid(Run(Empty(), cs)) && AuthorOut(Run(Empty(), cs))
    ensures OneAuthorRow(Run(Empty(), cs))
    ensures Throughout(Empty(), cs, ReplacesReviewer) ==> AtMostTwo(Run(Empty(), cs))
    ensures Throughout(Empty(), cs, DistinctPool) ==> NoReviewerTwice(Run(Empty(), cs))
  {
    RunKeeps(Empty(), cs);
  }
}

=== FILE: pull_request.dfy ===
/** The pull-request engine: creation with automatic reviewer selection, the
    OPEN -> MERGED status guard, and single-reviewer reassignment. The random
    shuffle and the random index of the source are inputs here: `order` is the
    permutation the shuffle produced and `pick` the index the draw produced. */
module PullRequestEngine {
  import opened Wrappers
  import opened Domain
  import opened Errors
  import opened Seqs
  import opened Store

  // ------------------------------------------------------------ creation

  /** The active users of `users` other than the author, in listing order. */
  function Eligible(users: seq<User>, authorId: UserId): (r: seq<User>)
    ensures forall u :: u in r <==> u in users && u.isActive && u.id != authorId
  {
    Filter((u: User) => u.isActive && u.id != authorId, users)
  }

  /** The eligible members of each of `teams` in turn; a user on two of the
      teams appears twice. */
  function Coworkers(d: Directory, teams: seq<TeamName>, authorId: UserId): (r: seq<User>)
    ensures forall u :: u in r <==>
      u.isActive && u.id != authorId && exists t :: t in teams && u in GetUsersByTeamName(d, t)
    decreases |teams|
  {
    if teams == [] then []
    else Eligible(GetUsersByTeamName(d, teams[0]), authorId) + Coworkers(d, teams[1..], authorId)
  }

  /** The candidate pool of a new pull request by `authorId`: the eligible
      members of every team the author is linked to. */
  function CreateCandidates(d: Directory, authorId: UserId): (r: seq<User>)
    ensures forall u :: u in r <==>
      u.isActive && u.id != authorId && exists t :: Link(t, authorId) in d.links && u in GetUsersByTeamName(d, t)
  {
    Coworkers(d, GetTeamsByUserID(d, authorId), authorId)
  }

  /** `order` lists each of 0 .. n-1 exactly once. */
  predicate IsPermutation(order: seq<nat>, n: nat) {
    && |order| == n
    && (forall i :: 0 <= i < n ==> order[i] < n)
    && (forall i, j :: 0 <= i < j < n ==> order[i] != order[j])
  }

  /** A sequence that places xs[order[i]] at each position i holds every
      element of `xs` as often as `xs` does. The proof removes the element
      the last position takes and renumbers the positions after it. */
  lemma {:induction false} Rearranged<T>(xs: seq<T>, order: seq<nat>, r: seq<T>)
    requires IsPermutation(order, |xs|)
    requires |r| == |xs|
    requires forall i :: 0 <= i < |r| ==> r[i] == xs[order[i]]
    ensures multiset(r) == multiset(xs)
    decreases |xs|
  {
    var n := |xs|;
    if n > 0 {
      var m := order[n - 1];
      var rest := xs[..m] + xs[m + 1..];
      var renumbered := seq(n - 1, i requires 0 <= i < n - 1 =>
        if order[i] <= m then order[i] else order[i] - 1);
      forall i | 0 <= i < n - 1
        ensures order[i] != m && renumbered[i] < n - 1
        ensures r[i] == rest[renumbered[i]]
      {
        assert order[i] != order[n - 1];
      }
      forall i, j | 0 <= i < j < n - 1
        ensures renumbered[i] != renumbered[j]
      {
        assert order[i] != order[j];
      }
      Rearranged(rest, renumbered, r[..n - 1]);
      assert r == r[..n - 1] + [xs[m]];
      assert xs == xs[..m] + [xs[m]] + xs[m + 1..];
    }
  }

  /** `pool` rearranged by `order`: position i receives pool[order[i]]. */
  function Shuffle(pool: seq<User>, order: seq<nat>): (r: seq<User>)
    requires IsPermutation(order, |pool|)
    ensures |r| == |pool|
    ensures multiset(r) == multiset(pool)
    ensures multiset(Ids(r)) == multiset(Ids(pool))
  {
    var r := seq(|pool|, i requires 0 <= i < |pool| => pool[order[i]]);
    Rearranged(pool, order, r);
    Rearranged(Ids(pool), order, Ids(r));
    r
  }

  lemma ShuffleKeepsDistinct(pool: seq<User>, order: seq<nat>)
    requires IsPermutation(order, |pool|)
    requires AllDistinct(Ids(pool))
    ensures AllDistinct(Ids(Shuffle(pool, order)))
  {
    var r := Shuffle(pool, order);
    var before, after := Ids(pool), Ids(r);
    forall i, j | 0 <= i < j < |after|
      ensures after[i] != after[j]
    {
      var a, b := order[i], order[j];
      assert a != b;
      assert after[i] == r[i].id == before[a];
      assert after[j] == r[j].id == before[b];
      if a < b {
        assert before[a] != before[b];
      } else {
        assert before[b] != before[a];
      }
    }
  }

  /** The reviewers CreatePullRequest keeps: the first two of the shuffled
      pool, or all of it when it is shorter. */
  function SelectReviewers(pool: seq<User>, order: seq<nat>): (ids: seq<UserId>)
    requires IsPermutation(order, |pool|)
    ensures |ids| == Min(2, |pool|)
    ensures forall r :: r in ids ==> exists u :: u in pool && u.id == r
    ensures multiset(ids) <= multiset(Ids(pool))
  {
    var shuffled := Shuffle(pool, order);
    var n := Min(2, |pool|);
    assert forall k :: 0 <= k < n ==> shuffled[k] in multiset(pool);
    assert Ids(shuffled[..n]) == Ids(shuffled)[..n];
    PrefixSubMultiset(Ids(shuffled), n);
    Ids(shuffled[..n])
  }

  /** A user is assigned both reviewer places only when the pool lists them
      at least twice. */
  lemma ReviewerTwiceListedTwice(pool: seq<User>, order: seq<nat>, x: UserId)
    requires IsPermutation(order, |pool|)
    requires SelectReviewers(pool, order) == [x, x]
    ensures multiset(Ids(pool))[x] >= 2
  {
    assert multiset([x, x])[x] == 2;
  }

  /** Distinct candidates give distinct reviewers. */
  lemma SelectReviewersDistinct(pool: seq<User>, order: seq<nat>)
    requires IsPermutation(order, |pool|)
    requires AllDistinct(Ids(pool))
    ensures AllDistinct(SelectReviewers(pool, order))
  {
    var shuffled := Shuffle(pool, order);
    var n := Min(2, |pool|);
    ShuffleKeepsDistinct(pool, order);
    assert forall k :: 0 <= k < n ==> Ids(shuffled[..n])[k] == Ids(shuffled)[k];
  }

  /** One reviewer ownership row per id, in the given order. */
  function ReviewerRows(id: PullRequestId, ids: seq<UserId>): (rows: seq<RequestOwner>)
    ensures |rows| == |ids|
    ensures forall o :: o in rows ==> o.requestId == id && o.role == Reviewer
    decreases |ids|
  {
    if ids == [] then [] else [RequestOwner(ids[0], id, Reviewer)] + ReviewerRows(id, ids[1..])
  }

  /** The writes that save `rows`, in order. */
  function SaveRows(rows: seq<RequestOwner>): (ws: seq<Write>)
    ensures |ws| == |rows|
    decreases |rows|
  {
    if rows == [] then [] else [SaveRequestOwner(rows[0])] + SaveRows(rows[1..])
  }

  /** Saving rows appends them to the ownership store and changes nothing else. */
  lemma {:induction false} ApplySaveRows(s: State, rows: seq<RequestOwner>)
    ensures ApplyAll(s, SaveRows(rows)) == s.(owners := s.owners + rows)
    decreases |rows|
  {
    if rows != [] {
      var ws := SaveRows(rows);
      var s1 := s.(owners := s.owners + [rows[0]]);
      assert ws[0] == SaveRequestOwner(rows[0]) && ws[1..] == SaveRows(rows[1..]);
      assert Apply(s, ws[0]) == s1;
      ApplySaveRows(s1, rows[1..]);
      assert s1.owners + rows[1..] == s.owners + rows;
    }
  }

  /** The i-th reviewer write saves the i-th reviewer's row. */
  lemma {:induction false} SaveReviewerRowsAt(id: PullRequestId, ids: seq<UserId>)
    ensures forall i :: 0 <= i < |ids| ==>
      SaveRows(ReviewerRows(id, ids))[i] == SaveRequestOwner(RequestOwner(ids[i], id, Reviewer))
    decreases |ids|
  {
    if ids != [] {
      var rows := ReviewerRows(id, ids);
      assert rows[1..] == ReviewerRows(id, ids[1..]);
      assert SaveRows(rows)[1..] == SaveRows(rows[1..]);
      SaveReviewerRowsAt(id, ids[1..]);
      forall i | 1 <= i < |ids|
        ensures SaveRows(rows)[i] == SaveRequestOwner(RequestOwner(ids[i], id, Reviewer))
      {
        assert SaveRows(rows)[i] == SaveRows(rows[1..])[i - 1];
        assert ids[i] == ids[1..][i - 1];
      }
    }
  }

  /** The reviewer rows written for `id` list exactly `ids` as its reviewers
      and none for any other pull request. */
  lemma {:induction false} ReviewerIdsOfRows(id: PullRequestId, ids: seq<UserId>, k: PullRequestId)
    ensures ReviewerIds(ReviewerRows(id, ids), k) == if k == id then ids else []
    decreases |ids|
  {
    if ids != [] {
      var rows := ReviewerRows(id, ids);
      assert rows[1..] == ReviewerRows(id, ids[1..]);
      ReviewerIdsOfRows(id, ids[1..], k);
    }
  }

  /** The shuffle input fits the candidate pool of the request's author. */
  predicate CanShuffle(s: State, request: Option<PullRequest>, order: seq<nat>) {
    request.Some? ==> IsPermutation(order, |CreateCandidates(s.directory, request.value.authorId)|)
  }

  /** The writes and result of opening `req` with the given reviewers: the
      row is saved as handed in (its status is set to OPEN only on the
      returned value), then the author row, then one row per reviewer. */
  function Opening(req: PullRequest, reviewers: seq<UserId>): (o: Outcome<PullRequest>)
    ensures |o.writes| == 2 + |reviewers|
    ensures o.result.Success?
    ensures var pr := o.result.value;
      pr.id == req.id && pr.name == req.name && pr.authorId == req.authorId
      && pr.status == Open && pr.reviewers == reviewers
  {
    var saved := [SavePullRequest(PullRequestRow(req.id, req.name, req.authorId, req.status)),
                  SaveRequestOwner(RequestOwner(req.authorId, req.id, Author))];
    Outcome(saved + SaveRows(ReviewerRows(req.id, reviewers)), Success(req.(status := Open, reviewers := reviewers)))
  }

  /** The writes and result of a CreatePullRequest that passed its checks.
      Neither of the first two writes touches the user or team stores, so the
      pool read after them is the pool of `s`. */
  function Opened(s: State, req: PullRequest, order: seq<nat>): (o: Outcome<PullRequest>)
    requires IsPermutation(order, |CreateCandidates(s.directory, req.authorId)|)
    ensures var pool := CreateCandidates(s.directory, req.authorId);
      && |o.writes| == 2 + Min(2, |pool|)
      && o.result.Success?
      && o.result.value.status == Open
      && |o.result.value.reviewers| == Min(2, |pool|)
      && req.authorId !in o.result.value.reviewers
  {
    Opening(req, SelectReviewers(CreateCandidates(s.directory, req.authorId), order))
  }

  /** CreatePullRequest. Errors are checked in the order nil request, missing
      author, inactive author, duplicate id, and none of them writes anything. */
  function CreatePullRequest(s: State, request: Option<PullRequest>, order: seq<nat>): (o: Outcome<PullRequest>)
    requires CanShuffle(s, request, order)
    ensures request.None? ==> o == Outcome([], Failure(AuthorNotFound))
    ensures request.Some? ==>
      var req := request.value;
      var users := s.directory.users;
      && (req.authorId !in users ==> o == Outcome([], Failure(AuthorNotFound)))
      && (req.authorId in users && !users[req.authorId].isActive ==>
            o == Outcome([], Failure(AuthorIsInactive)))
      && (req.authorId in users && users[req.authorId].isActive && req.id in s.pulls ==>
            o == Outcome([], Failure(PullRequestAlreadyExists)))
      && (req.authorId in users && users[req.authorId].isActive && req.id !in s.pulls ==>
            o == Opened(s, req, order))
  {
    if request.None? then Outcome([], Failure(AuthorNotFound))
    else
      var req := request.value;
      match GetUserByID(s.directory, req.authorId)
      case Failure(_) => Outcome([], Failure(AuthorNotFound))
      case Success(author) =>
        if !author.isActive then Outcome([], Failure(AuthorIsInactive))
        else if GetPullRequestByID(s, req.id).Success? then Outcome([], Failure(PullRequestAlreadyExists))
        else Opened(s, req, order)
  }

  /** A pull request that passed the checks is returned as OPEN with
      min(2, |pool|) reviewers drawn from the pool, pairwise distinct when the
      pool is. */
  lemma CreateAssignsReviewers(s: State, req: PullRequest, order: seq<nat>)
    requires IsPermutation(order, |CreateCandidates(s.directory, req.authorId)|)
    ensures
      var o := Opened(s, req, order);
      var pool := CreateCandidates(s.directory, req.authorId);
      && o.result.Success?
      && var pr := o.result.value;
      && pr == req.(status := Open, reviewers := pr.reviewers)
      && |pr.reviewers| == Min(2, |pool|)
      && (forall r :: r in pr.reviewers ==> exists u :: u in pool && u.id == r)
      && (AllDistinct(Ids(pool)) ==> AllDistinct(pr.reviewers))
  {
    var pool := CreateCandidates(s.directory, req.authorId);
    if AllDistinct(Ids(pool)) {
      SelectReviewersDistinct(pool, order);
    }
  }

  /** The pool is not deduplicated: a teammate who shares two of the
      author's teams is listed twice. */
  lemma SharedTeammateListedTwice(d: Directory, authorId: UserId, u: User, a: TeamName, b: TeamName)
    requires GetTeamsByUserID(d, authorId) == [a, b]
    requires Eligible(GetUsersByTeamName(d, a), authorId) == [u]
    requires Eligible(GetUsersByTeamName(d, b), authorId) == [u]
    ensures CreateCandidates(d, authorId) == [u, u]
  {
    var teams := [a, b];
    assert teams[1..] == [b];
    assert [b][1..] == [];
    assert Coworkers(d, [b], authorId) == [u] + [];
    assert Coworkers(d, teams, authorId) == [u] + [u];
  }

  /** Whatever the shuffle does, a pool listing one user twice gives both
      reviewer places to that user. */
  lemma DoubledPoolReviewsTwice(u: User, order: seq<nat>)
    requires IsPermutation(order, 2)
    ensures SelectReviewers([u, u], order) == [u.id, u.id]
    ensures !AllDistinct(SelectReviewers([u, u], order))
  {
    var shuffled := Shuffle([u, u], order);
    assert shuffled[..2] == [u, u];
    assert Ids([u, u]) == [u.id, u.id];
    var r := SelectReviewers([u, u], order);
    assert r[0] == r[1];
  }

  /** The writes of an opening are the pull request row, then the author row,
      then one reviewer row per returned reviewer in the returned order. */
  lemma OpeningWrites(req: PullRequest, reviewers: seq<UserId>)
    ensures
      var o := Opening(req, reviewers);
      && |o.writes| == 2 + |reviewers|
      && o.writes[0] == SavePullRequest(PullRequestRow(req.id, req.name, req.authorId, req.status))
      && o.writes[1] == SaveRequestOwner(RequestOwner(req.authorId, req.id, Author))
      && (forall i :: 0 <= i < |reviewers| ==>
            o.writes[2 + i] == SaveRequestOwner(RequestOwner(reviewers[i], req.id, Reviewer)))
  {
    var o := Opening(req, reviewers);
    SaveReviewerRowsAt(req.id, reviewers);
    forall i | 0 <= i < |reviewers|
      ensures o.writes[2 + i] == SaveRequestOwner(RequestOwner(reviewers[i], req.id, Reviewer))
    {
      assert o.writes[2 + i] == SaveRows(ReviewerRows(req.id, reviewers))[i];
    }
  }

  // ------------------------------------------------------- status guard

  /** UpdatePullRequest: a MERGED record is returned as stored with no write;
      an OPEN one takes the request's status and is read back. */
  function UpdatePullRequest(s: State, request: Option<PullRequest>): (o: Outcome<PullRequest>)
    ensures request.None? ==> o == Outcome([], Failure(AuthorNotFound))
    ensures request.Some? && request.value.id !in s.pulls ==>
      o == Outcome([], Failure(PullRequestNotFound))
    ensures request.Some? && request.value.id in s.pulls && s.pulls[request.value.id].status == Merged ==>
      o.writes == [] && o.result == GetPullRequestByID(s, request.value.id)
    ensures request.Some? && request.value.id in s.pulls && s.pulls[request.value.id].status == Open ==>
      var id := request.value.id;
      && o.writes == [Write.UpdatePullRequest(id, request.value.status)]
      && Post(s, o) == s.(pulls := s.pulls[id := s.pulls[id].(status := request.value.status)])
      && o.result == GetPullRequestByID(Post(s, o), id)
  {
    if request.None? then Outcome([], Failure(AuthorNotFound))
    else
      var id := request.value.id;
      match GetPullRequestByID(s, id)
      case Failure(_) => Outcome([], Failure(PullRequestNotFound))
      case Success(stored) =>
        if stored.status == Merged then Outcome([], Success(stored))
        else
          var ws := [Write.UpdatePullRequest(id, request.value.status)];
          Outcome(ws, GetPullRequestByID(ApplyAll(s, ws), id))
  }

  /** MergePullRequest: OPEN becomes MERGED through UpdatePullRequest; a MERGED
      record comes back as stored with no write. */
  function MergePullRequest(s: State, id: PullRequestId): (o: Outcome<PullRequest>)
    ensures id !in s.pulls ==> o == Outcome([], Failure(PullRequestNotFound))
    ensures id in s.pulls && s.pulls[id].status == Merged ==>
      o == Outcome([], GetPullRequestByID(s, id))
    ensures id in s.pulls && s.pulls[id].status == Open ==>
      && o.writes == [Write.UpdatePullRequest(id, Merged)]
      && Post(s, o) == s.(pulls := s.pulls[id := s.pulls[id].(status := Merged)])
      && o.result.Success? && o.result.value.status == Merged
      && o.result == GetPullRequestByID(Post(s, o), id)
  {
    match GetPullRequestByID(s, id)
    case Failure(_) => Outcome([], Failure(PullRequestNotFound))
    case Success(pr) =>
      if pr.status == Merged then Outcome([], Success(pr))
      else UpdatePullRequest(s, Some(pr.(status := Merged)))
  }

  // -------------------------------------------------------- reassignment

  /** What ReassignRequest hands back: nothing for a merged pull request, or
      the re-read pull request and the new reviewer. */
  datatype Reassignment = NoChange | Reassigned(pr: PullRequest, reviewer: User)

  /** The reviewer row ReassignRequest deletes. */
  function Replaced(id: PullRequestId, userId: UserId): RequestOwner {
    RequestOwner(userId, id, Reviewer)
  }

  /** Everyone still holding a row of any role on `id`. */
  function Assigned(s: State, id: PullRequestId): (r: set<UserId>)
    ensures forall u :: u in r <==> exists role :: RequestOwner(u, id, role) in s.owners
  {
    set o | o in GetUsersByPullRequestID(s, id) :: o.userId
  }

  /** Whoever holds no row on `id` is none of its reviewers. */
  lemma NotAssignedNotReviewer(s: State, id: PullRequestId, userId: UserId)
    requires userId !in Assigned(s, id)
    ensures userId !in ReviewerIds(s.owners, id)
  {
    var r := RequestOwner(userId, id, Reviewer);
    assert r in s.owners ==> r in GetUsersByPullRequestID(s, id) && r.userId in Assigned(s, id);
  }

  /** The coworkers who may take over: active, not the author, not assigned. */
  function ReplacementCandidates(coworkers: seq<User>, authorId: UserId, taken: set<UserId>): (r: seq<User>)
    ensures forall u :: u in r <==> u in coworkers && u.isActive && u.id != authorId && u.id !in taken
  {
    Filter((u: User) => u.isActive && u.id != authorId && u.id !in taken, coworkers)
  }

  /** The list ReassignRequest draws from: members of the author's first team,
      filtered against the rows left after the old reviewer's row is gone. */
  function ReassignPool(s: State, id: PullRequestId, userId: UserId, author: User): (r: seq<User>)
    requires id in s.pulls
    requires |GetTeamsByUserID(s.directory, s.pulls[id].authorId)| > 0
    ensures var firstTeam := GetTeamsByUserID(s.directory, s.pulls[id].authorId)[0];
      forall u :: u in r <==>
        && u in GetUsersByTeamName(s.directory, firstTeam)
        && u.isActive && u.id != author.id
        && u.id !in Assigned(s.(owners := Without(s.owners, Replaced(id, userId))), id)
  {
    var mid := Apply(s, DeleteRequestOwner(Replaced(id, userId)));
    var firstTeam := GetTeamsByUserID(mid.directory, s.pulls[id].authorId)[0];
    ReplacementCandidates(GetUsersByTeamName(mid.directory, firstTeam), author.id, Assigned(mid, id))
  }

  /** The draw is possible: when the source reaches its team lookup the author
      has a team (it indexes the first one), and `pick` indexes a non-empty
      candidate list. */
  predicate CanDraw(s: State, id: PullRequestId, userId: UserId, pick: nat) {
    id in s.pulls && s.pulls[id].status == Open
    && s.pulls[id].authorId in s.directory.users
    && s.directory.users[s.pulls[id].authorId].isActive
    ==>
    && |GetTeamsByUserID(s.directory, s.pulls[id].authorId)| > 0
    && var pool := ReassignPool(s, id, userId, s.directory.users[s.pulls[id].authorId]);
       |pool| == 0 || pick < |pool|
  }

  /** The writes and result of a ReassignRequest whose author checks passed:
      the old row is deleted, then a replacement is drawn and saved. */
  function Replace(s: State, id: PullRequestId, userId: UserId, author: User, pick: nat): (o: Outcome<Reassignment>)
    requires id in s.pulls
    requires |GetTeamsByUserID(s.directory, s.pulls[id].authorId)| > 0
    requires var pool := ReassignPool(s, id, userId, author); |pool| == 0 || pick < |pool|
    ensures 1 <= |o.writes| <= 2 && o.writes[0] == DeleteRequestOwner(Replaced(id, userId))
    ensures o.result.Failure? <==> |ReassignPool(s, id, userId, author)| == 0
    ensures o.result.Failure? ==> o.result.error == CannotFindActiveMembers && |o.writes| == 1
    ensures o.result.Success? ==>
      && o.result.value.Reassigned?
      && o.result.value.reviewer in ReassignPool(s, id, userId, author)
      && o.result.value.pr.id == id
  {
    var pool := ReassignPool(s, id, userId, author);
    if |pool| == 0 then Outcome([DeleteRequestOwner(Replaced(id, userId))], Failure(CannotFindActiveMembers))
    else Reassigning(s, id, userId, pool[pick])
  }

  /** Deleting `userId`'s reviewer row, saving one for `chosen`, and reading
      the pull request back. */
  function Reassigning(s: State, id: PullRequestId, userId: UserId, chosen: User): (o: Outcome<Reassignment>)
    ensures |o.writes| == 2
    ensures o.result.Success? <==> id in s.pulls
    ensures o.result.Success? ==>
      o.result.value.Reassigned? && o.result.value.reviewer == chosen && o.result.value.pr.id == id
  {
    var ws := [DeleteRequestOwner(Replaced(id, userId)), SaveRequestOwner(RequestOwner(chosen.id, id, Reviewer))];
    var mid := Apply(s, ws[0]);
    assert ws[1..][0] == ws[1] && ws[1..][1..] == [];
    assert ApplyAll(s, ws) == Apply(mid, ws[1]);
    var reread := GetPullRequestByID(ApplyAll(s, ws), id);
    Outcome(ws, if reread.Success? then Success(Reassigned(reread.value, chosen)) else Failure(reread.error))
  }

  /** The store after a reassignment: the old row gone, the new one appended,
      nothing else changed; the result is the pull request read back. */
  lemma ReassigningState(s: State, id: PullRequestId, userId: UserId, chosen: User)
    requires id in s.pulls
    ensures
      var o := Reassigning(s, id, userId, chosen);
      var row := RequestOwner(chosen.id, id, Reviewer);
      && Post(s, o) == s.(owners := Without(s.owners, Replaced(id, userId)) + [row])
      && o.result == Success(Reassigned(GetPullRequestByID(Post(s, o), id).value, chosen))
      && chosen.id in o.result.value.pr.reviewers
  {
    var o := Reassigning(s, id, userId, chosen);
    var ws := [DeleteRequestOwner(Replaced(id, userId)), SaveRequestOwner(RequestOwner(chosen.id, id, Reviewer))];
    assert o.writes == ws;
    var mid := Apply(s, ws[0]);
    assert ws[1..][0] == ws[1] && ws[1..][1..] == [];
    assert ApplyAll(s, ws) == ApplyAll(mid, ws[1..]);
    assert ApplyAll(mid, ws[1..]) == ApplyAll(Apply(mid, ws[1]), []);
  }

  /** ReassignRequest. A merged pull request yields no result, no error and no
      write; a missing or inactive author is reported before anything is
      written. */
  function ReassignRequest(s: State, id: PullRequestId, userId: UserId, pick: nat): (o: Outcome<Reassignment>)
    requires CanDraw(s, id, userId, pick)
    ensures id !in s.pulls ==> o == Outcome([], Failure(PullRequestNotFound))
    ensures id in s.pulls && s.pulls[id].status == Merged ==> o == Outcome([], Success(NoChange))
    ensures id in s.pulls && s.pulls[id].status == Open ==>
      var authorId, users := s.pulls[id].authorId, s.directory.users;
      && (authorId !in users ==> o == Outcome([], Failure(AuthorNotFound)))
      && (authorId in users && !users[authorId].isActive ==> o == Outcome([], Failure(AuthorIsInactive)))
      && (authorId in users && users[authorId].isActive ==> o == Replace(s, id, userId, users[authorId], pick))
  {
    match GetPullRequestByID(s, id)
    case Failure(_) => Outcome([], Failure(PullRequestNotFound))
    case Success(pr) =>
      if pr.status == Merged then Outcome([], Success(NoChange))
      else
        match GetUserByID(s.directory, pr.authorId)
        case Failure(_) => Outcome([], Failure(AuthorNotFound))
        case Success(author) =>
          if !author.isActive then Outcome([], Failure(AuthorIsInactive))
          else Replace(s, id, userId, author, pick)
  }

  /** The replacement is an active member of the author's first team, not the
      author, and holds no row on the pull request once the old reviewer's row
      is deleted; it is then one of the pull request's reviewers. With no such
      member the deletion stands and CannotFindActiveMembers is returned. */
  lemma ReassignChoosesEligible(s: State, id: PullRequestId, userId: UserId, author: User, pick: nat)
    requires id in s.pulls
    requires |GetTeamsByUserID(s.directory, s.pulls[id].authorId)| > 0
    requires var pool := ReassignPool(s, id, userId, author); |pool| == 0 || pick < |pool|
    ensures
      var o := Replace(s, id, userId, author, pick);
      var firstTeam := GetTeamsByUserID(s.directory, s.pulls[id].authorId)[0];
      var mid := Apply(s, DeleteRequestOwner(Replaced(id, userId)));
      && (o.result.Failure? <==> |ReassignPool(s, id, userId, author)| == 0)
      && (o.result.Failure? ==>
            o == Outcome([DeleteRequestOwner(Replaced(id, userId))], Failure(CannotFindActiveMembers)))
      && (o.result.Success? ==>
            && o.result.value.Reassigned?
            && var u := o.result.value.reviewer;
            && u in GetUsersByTeamName(s.directory, firstTeam)
            && u.isActive
            && u.id != author.id
            && u.id !in Assigned(mid, id)
            && o.writes == [DeleteRequestOwner(Replaced(id, userId)),
                            SaveRequestOwner(RequestOwner(u.id, id, Reviewer))]
            && Success(o.result.value.pr) == GetPullRequestByID(Post(s, o), id)
            && u.id in o.result.value.pr.reviewers)
  {
    var pool := ReassignPool(s, id, userId, author);
    if |pool| > 0 {
      ReassigningState(s, id, userId, pool[pick]);
    }
  }

  /** What ReassignRequest writes: nothing, or the deletion of `userId`'s
      reviewer row on an open pull request, followed, when a candidate was
      found, by a reviewer row for a user who is not the author and not one
      of the reviewers left after the deletion. */
  lemma ReassignWriteShape(s: State, id: PullRequestId, userId: UserId, pick: nat)
    requires Keyed(s.directory)
    requires CanDraw(s, id, userId, pick)
    ensures
      var o := ReassignRequest(s, id, userId, pick);
      || o.writes == []
      || (&& id in s.pulls && s.pulls[id].status == Open
          && 1 <= |o.writes| <= 2
          && o.writes[0] == DeleteRequestOwner(Replaced(id, userId))
          && (|o.writes| == 2 ==>
                && o.writes[1].SaveRequestOwner?
                && var r := o.writes[1].owner;
                && r.requestId == id && r.role == Reviewer
                && r.userId != s.pulls[id].authorId
                && r.userId !in ReviewerIds(Without(s.owners, Replaced(id, userId)), id)))
  {
    var o := ReassignRequest(s, id, userId, pick);
    if o.writes != [] {
      var author := s.directory.users[s.pulls[id].authorId];
      ReassignChoosesEligible(s, id, userId, author, pick);
      if o.result.Success? {
        var mid := Apply(s, DeleteRequestOwner(Replaced(id, userId)));
        var u := o.result.value.reviewer;
        NotAssignedNotReviewer(mid, id, u.id);
      }
    }
  }

  /** A pull request nobody has rows on yet. */
  lemma {:induction false} NoRowsForUnknownPull(owners: seq<RequestOwner>, pulls: set<PullRequestId>, id: PullRequestId)
    requires forall o :: o in owners ==> o.requestId in pulls
    requires id !in pulls
    ensures ReviewerIds(owners, id) == []
    decreases |owners|
  {
    if owners != [] {
      assert owners[0] in owners;
      NoRowsForUnknownPull(owners[1..], pulls, id);
    }
  }

  /** The store after an opening: the row as handed in, then the author row
      and the reviewer rows appended to the ownership store. */
  lemma OpeningState(s: State, req: PullRequest, reviewers: seq<UserId>)
    ensures
      Post(s, Opening(req, reviewers)) == s.(
        pulls := s.pulls[req.id := PullRequestRow(req.id, req.name, req.authorId, req.status)],
        owners := s.owners + [RequestOwner(req.authorId, req.id, Author)] + ReviewerRows(req.id, reviewers))
  {
    var rows := ReviewerRows(req.id, reviewers);
    var saved := [SavePullRequest(PullRequestRow(req.id, req.name, req.authorId, req.status)),
                  SaveRequestOwner(RequestOwner(req.authorId, req.id, Author))];
    ApplyAllConcat(s, saved, SaveRows(rows));
    ApplySaveRows(ApplyAll(s, saved), rows);
  }

  /** After an opening of a new id the store lists the new pull request with
      exactly the returned reviewers (and the status the request carried);
      every other pull request keeps its record and its reviewers, and the
      user and team stores are untouched. */
  lemma OpeningRecordsReviewers(s: State, req: PullRequest, reviewers: seq<UserId>)
    requires Valid(s)
    requires req.id !in s.pulls
    ensures
      var o := Opening(req, reviewers);
      var post := Post(s, o);
      && GetPullRequestByID(post, req.id) == Success(req.(reviewers := reviewers))
      && post.directory == s.directory
      && post.pulls == s.pulls[req.id := PullRequestRow(req.id, req.name, req.authorId, req.status)]
      && ReviewerIds(post.owners, req.id) == reviewers
      && (forall k :: k in s.pulls ==> ReviewerIds(post.owners, k) == ReviewerIds(s.owners, k))
  {
    OpeningState(s, req, reviewers);
    var owners' := s.owners + [RequestOwner(req.authorId, req.id, Author)] + ReviewerRows(req.id, reviewers);
    forall k | k == req.id || k in s.pulls
      ensures ReviewerIds(owners', k) == (if k == req.id then reviewers else ReviewerIds(s.owners, k))
    {
      OpenedReviewerIds(s.owners, s.pulls.Keys, req.id, req.authorId, reviewers, k);
    }
  }

  /** On the ownership rows alone: appending the author's row and the
      reviewer rows of a pull request no existing row names gives it exactly
      `reviewers` and leaves every other pull request's reviewers alone. */
  lemma OpenedReviewerIds(owners: seq<RequestOwner>, pulls: set<PullRequestId>, id: PullRequestId,
                          authorId: UserId, reviewers: seq<UserId>, k: PullRequestId)
    requires forall o :: o in owners ==> o.requestId in pulls
    requires id !in pulls
    ensures ReviewerIds(owners + [RequestOwner(authorId, id, Author)] + ReviewerRows(id, reviewers), k) ==
      if k == id then reviewers else ReviewerIds(owners, k)
  {
    var authorRow := RequestOwner(authorId, id, Author);
    ReviewerIdsConcat(owners + [authorRow], ReviewerRows(id, reviewers), k);
    ReviewerIdsConcat(owners, [authorRow], k);
    ReviewerIdsOfRows(id, reviewers, k);
    if k == id {
      NoRowsForUnknownPull(owners, pulls, id);
    }
  }

  /** Merging twice: the second call writes nothing and returns what the first
      returned. */
  lemma MergeIdempotent(s: State, id: PullRequestId)
    ensures
      var o1 := MergePullRequest(s, id);
      var s1 := Post(s, o1);
      var o2 := MergePullRequest(s1, id);
      o1.result.Success? ==>
        && s1.pulls[id].status == Merged
        && o2.writes == []
        && o2.result == o1.result
  {
  }

  /** The old reviewer's row is deleted before the exclusion set is read, so
      the old reviewer is drawn again when it is still an active non-author
      member of the author's first team holding no other row on the pull
      request. */
  lemma ReassignKeepsRemovedReviewerEligible(s: State, id: PullRequestId, userId: UserId, author: User)
    requires id in s.pulls
    requires |GetTeamsByUserID(s.directory, s.pulls[id].authorId)| > 0
    requires var firstTeam := GetTeamsByUserID(s.directory, s.pulls[id].authorId)[0];
      && userId in s.directory.users
      && s.directory.users[userId].id == userId
      && s.directory.users[userId] in GetUsersByTeamName(s.directory, firstTeam)
      && s.directory.users[userId].isActive
      && userId != author.id
    requires RequestOwner(userId, id, Author) !in s.owners
    ensures s.directory.users[userId] in ReassignPool(s, id, userId, author)
  {
    var mid := Apply(s, DeleteRequestOwner(Replaced(id, userId)));
    assert mid.owners == Without(s.owners, Replaced(id, userId));
    forall o | o in GetUsersByPullRequestID(mid, id)
      ensures o.userId != userId
    {
      assert o in s.owners && o.requestId == id;
      assert o != Replaced(id, userId);
      assert o != RequestOwner(userId, id, Author);
      assert o == RequestOwner(o.userId, id, o.role);
      assert o.role == Reviewer || o.role == Author;
    }
  }

  /** ReassignRequest does not check that the replaced user is a reviewer:
      when `userId` holds no reviewer row, nothing is deleted and a successful
      draw adds a reviewer, so a pull request with two reviewers gets a
      third. */
  lemma ReassignOfNonReviewerAddsReviewer(s: State, id: PullRequestId, userId: UserId, chosen: User)
    requires id in s.pulls
    requires Replaced(id, userId) !in s.owners
    ensures
      var o := Reassigning(s, id, userId, chosen);
      && ReviewerIds(Post(s, o).owners, id) == ReviewerIds(s.owners, id) + [chosen.id]
      && o.result.Success?
      && |o.result.value.pr.reviewers| == |ReviewerIds(s.owners, id)| + 1
  {
    var o := Reassigning(s, id, userId, chosen);
    var post := s.(owners := Without(s.owners, Replaced(id, userId)) + [RequestOwner(chosen.id, id, Reviewer)]);
    ReassigningState(s, id, userId, chosen);
    AppendedReviewer(s.owners, Replaced(id, userId), id, chosen.id);
    assert o.result.value.pr == GetPullRequestByID(post, id).value;
  }

  /** On the ownership rows alone: deleting a row that is not there and
      appending a reviewer row adds exactly that reviewer at the end. */
  lemma AppendedReviewer(owners: seq<RequestOwner>, gone: RequestOwner, id: PullRequestId, newId: UserId)
    requires gone !in owners
    ensures ReviewerIds(Without(owners, gone) + [RequestOwner(newId, id, Reviewer)], id) == ReviewerIds(owners, id) + [newId]
  {
    WithoutAbsent(owners, gone);
    ReviewerIdsConcat(owners, [RequestOwner(newId, id, Reviewer)], id);
  }
}

=== FILE: seqs.dfy ===
/** Sequence helpers shared by the store listings and the candidate filters. */
module Seqs {

  /** A prefix holds no element more often than the whole sequence. */
  lemma PrefixSubMultiset<T>(xs: seq<T>, n: nat)
    requires n <= |xs|
    ensures multiset(xs[..n]) <= multiset(xs)
  {
    assert xs == xs[..n] + xs[n..];
  }

  /** The elements of `s` that satisfy `p`, in their original order. */
  function Filter<T(==,!new)>(p: T -> bool, s: seq<T>): (r: seq<T>)
    ensures |r| <= |s|
    ensures forall x :: x in r <==> x in s && p(x)
    decreases |s|
  {
    if s == [] then []
    else (if p(s[0]) then [s[0]] else []) + Filter(p, s[1..])
  }

  /** Filtering distributes over concatenation. */
  lemma {:induction false} FilterConcat<T(!new)>(p: T -> bool, a: seq<T>, b: seq<T>)
    ensures Filter(p, a + b) == Filter(p, a) + Filter(p, b)
    decreases |a|
  {
    if a == [] {
      assert a + b == b;
    } else {
      assert (a + b)[0] == a[0];
      assert (a + b)[1..] == a[1..] + b;
      FilterConcat(p, a[1..], b);
    }
  }

  /** Filtering with a predicate every element meets changes nothing. */
  lemma {:induction false} FilterKeepsAll<T(!new)>(p: T -> bool, s: seq<T>)
    requires forall x :: x in s ==> p(x)
    ensures Filter(p, s) == s
    decreases |s|
  {
    if s != [] {
      assert s[0] in s;
      FilterKeepsAll(p, s[1..]);
      assert [s[0]] + s[1..] == s;
    }
  }

  /** Filtering out an element that occurs makes the sequence shorter. */
  lemma {:induction false} FilterDrops<T(!new)>(p: T -> bool, s: seq<T>, x: T)
    requires x in s && !p(x)
    ensures |Filter(p, s)| < |s|
    decreases |s|
  {
    if s[0] != x {
      FilterDrops(p, s[1..], x);
    }
  }

  /** Filtering keeps distinct elements distinct. */
  lemma {:induction false} FilterDistinct<T(!new)>(p: T -> bool, s: seq<T>)
    requires AllDistinct(s)
    ensures AllDistinct(Filter(p, s))
    decreases |s|
  {
    if s != [] {
      var tail := s[1..];
      assert AllDistinct(tail) by {
        forall i, j | 0 <= i < j < |tail| ensures tail[i] != tail[j] {
          assert tail[i] == s[i + 1] && tail[j] == s[j + 1];
        }
      }
      assert s[0] !in tail by {
        forall j | 0 <= j < |tail| ensures tail[j] != s[0] {
          assert tail[j] == s[j + 1];
        }
      }
      FilterDistinct(p, tail);
      DistinctCons(s[0], Filter(p, tail));
    }
  }

  /** Putting an element that does not occur in front keeps a sequence
      distinct. */
  lemma DistinctCons<T>(x: T, t: seq<T>)
    requires x !in t && AllDistinct(t)
    ensures AllDistinct([x] + t)
  {
    var s := [x] + t;
    forall i, j | 0 <= i < j < |s| ensures s[i] != s[j] {
      assert s[j] == t[j - 1];
      if i > 0 {
        assert s[i] == t[i - 1];
      }
    }
  }

  /** Appending an element that does not occur keeps a sequence distinct. */
  lemma DistinctSnoc<T>(t: seq<T>, x: T)
    requires x !in t && AllDistinct(t)
    ensures AllDistinct(t + [x])
  {
    var s := t + [x];
    forall i, j | 0 <= i < j < |s| ensures s[i] != s[j] {
      assert s[i] == t[i];
      if j < |t| {
        assert s[j] == t[j];
      }
    }
  }

  /** No element occurs twice. */
  predicate AllDistinct<T(==)>(s: seq<T>) {
    forall i, j :: 0 <= i < j < |s| ==> s[i] != s[j]
  }

  function Min(a: int, b: int): int {
    if a <= b then a else b
  }
}

=== FILE: store.dfy ===
/** The four storage ports the engine talks to (users, teams, pull requests,
    ownership rows), modelled as one immutable state. Every write an engine
    operation performs is a `Write` value; applying the writes in order gives
    the state the ports hold afterwards. The ports here fail only with their
    not-found signal. */
module Store {
  import opened Wrappers
  import opened Domain
  import opened Errors
  import opened Seqs

  /** What the pull-request table holds for one pull request. */
  datatype PullRequestRow = PullRequestRow(id: PullRequestId, name: string, authorId: UserId, status: Status)

  /** One membership row: `userId` belongs to `team`. */
  datatype Link = Link(team: TeamName, userId: UserId)

  /** Users, teams and membership, in the order the rows were linked. */
  datatype Directory = Directory(users: map<UserId, User>, teams: set<TeamName>, links: seq<Link>)

  datatype State = State(
    directory: Directory,
    pulls: map<PullRequestId, PullRequestRow>,
    owners: seq<RequestOwner>)

  /** One call of a writing port operation. */
  datatype Write =
    | SaveUser(user: User)
    | UpdateUser(user: User)
    | SaveTeam(name: TeamName)
    | LinkUserToTeam(team: TeamName, userId: UserId)
    | SavePullRequest(row: PullRequestRow)
    | UpdatePullRequest(id: PullRequestId, status: Status)
    | SaveRequestOwner(owner: RequestOwner)
    | DeleteRequestOwner(owner: RequestOwner)

  /** The writes an engine operation performed and what it returned. */
  datatype Outcome<+T> = Outcome(writes: seq<Write>, result: Result<T, Error>)

  /** Writes that go to the user and team stores. */
  predicate OnDirectory(w: Write) {
    w.SaveUser? || w.UpdateUser? || w.SaveTeam? || w.LinkUserToTeam?
  }

  predicate AllOnDirectory(ws: seq<Write>) {
    forall i :: 0 <= i < |ws| ==> OnDirectory(ws[i])
  }

  predicate NoneOnDirectory(ws: seq<Write>) {
    forall i :: 0 <= i < |ws| ==> !OnDirectory(ws[i])
  }

  /** The ownership rows left after deleting every copy of `row`. */
  function Without(owners: seq<RequestOwner>, row: RequestOwner): seq<RequestOwner> {
    Filter((o: RequestOwner) => o != row, owners)
  }

  /** The effect of one port write. Updates of a missing key change nothing. */
  function Apply(s: State, w: Write): (s': State)
    ensures OnDirectory(w) ==> s'.pulls == s.pulls && s'.owners == s.owners
    ensures !OnDirectory(w) ==> s'.directory == s.directory
  {
    match w
    case SaveUser(u) =>
      s.(directory := s.directory.(users := s.directory.users[u.id := u]))
    case UpdateUser(u) =>
      if u.id in s.directory.users
      then s.(directory := s.directory.(users := s.directory.users[u.id := u]))
      else s
    case SaveTeam(n) =>
      s.(directory := s.directory.(teams := s.directory.teams + {n}))
    case LinkUserToTeam(t, id) =>
      s.(directory := s.directory.(links := s.directory.links + [Link(t, id)]))
    case SavePullRequest(row) =>
      s.(pulls := s.pulls[row.id := row])
    case UpdatePullRequest(id, st) =>
      if id in s.pulls then s.(pulls := s.pulls[id := s.pulls[id].(status := st)]) else s
    case SaveRequestOwner(o) =>
      s.(owners := s.owners + [o])
    case DeleteRequestOwner(o) =>
      s.(owners := Without(s.owners, o))
  }

  /** The effect of a sequence of writes, first to last. Writes to one half of
      the store never change the other half. */
  function ApplyAll(s: State, ws: seq<Write>): (s': State)
    ensures AllOnDirectory(ws) ==> s'.pulls == s.pulls && s'.owners == s.owners
    ensures NoneOnDirectory(ws) ==> s'.directory == s.directory
    decreases |ws|
  {
    if ws == [] then s else ApplyAll(Apply(s, ws[0]), ws[1..])
  }

  /** The state after an operation's writes. */
  function Post<T>(s: State, o: Outcome<T>): State {
    ApplyAll(s, o.writes)
  }

  /** Applying a single write or a pair of writes. */
  lemma ApplyFew(s: State, w1: Write, w2: Write)
    ensures ApplyAll(s, [w1]) == Apply(s, w1)
    ensures ApplyAll(s, [w1, w2]) == Apply(Apply(s, w1), w2)
  {
    assert [w1][1..] == [];
    assert [w1, w2][1..] == [w2];
  }

  lemma {:induction false} ApplyAllConcat(s: State, a: seq<Write>, b: seq<Write>)
    ensures ApplyAll(s, a + b) == ApplyAll(ApplyAll(s, a), b)
    decreases |a|
  {
    if a == [] {
      assert a + b == b;
    } else {
      assert (a + b)[0] == a[0];
      assert (a + b)[1..] == a[1..] + b;
      ApplyAllConcat(Apply(s, a[0]), a[1..], b);
    }
  }

  /** Deleting a row that is not there changes nothing. */
  lemma WithoutAbsent(owners: seq<RequestOwner>, row: RequestOwner)
    requires row !in owners
    ensures Without(owners, row) == owners
  {
    FilterKeepsAll((o: RequestOwner) => o != row, owners);
  }

  // ---------------------------------------------------------------- reads

  /** The stored user `id`, or MemberNotFound. */
  function GetUserByID(d: Directory, id: UserId): (r: Result<User, Error>)
    ensures r.Success? <==> id in d.users
    ensures r.Success? ==> r.value == d.users[id]
    ensures r.Failure? ==> r.error == MemberNotFound
  {
    if id in d.users then Success(d.users[id]) else Failure(MemberNotFound)
  }

  /** Ids linked to team `name`, in link order. */
  function TeamMemberIds(links: seq<Link>, name: TeamName): (ids: seq<UserId>)
    ensures |ids| <= |links|
    ensures forall id :: id in ids <==> Link(name, id) in links
    decreases |links|
  {
    if links == [] then []
    else (if links[0].team == name then [links[0].userId] else []) + TeamMemberIds(links[1..], name)
  }

  /** Teams `id` is linked to, in link order. */
  function TeamsOf(links: seq<Link>, id: UserId): (names: seq<TeamName>)
    ensures |names| <= |links|
    ensures forall t :: t in names <==> Link(t, id) in links
    decreases |links|
  {
    if links == [] then []
    else (if links[0].userId == id then [links[0].team] else []) + TeamsOf(links[1..], id)
  }

  /** The stored users for `ids`, skipping ids with no user. */
  function ResolveUsers(users: map<UserId, User>, ids: seq<UserId>): (r: seq<User>)
    ensures |r| <= |ids|
    ensures forall id :: id in ids && id in users ==> users[id] in r
    ensures forall u :: u in r ==> exists id :: id in ids && id in users && users[id] == u
    decreases |ids|
  {
    if ids == [] then []
    else (if ids[0] in users then [users[ids[0]]] else []) + ResolveUsers(users, ids[1..])
  }

  /** The stored users linked to team `name`, in link order. */
  function GetUsersByTeamName(d: Directory, name: TeamName): seq<User> {
    ResolveUsers(d.users, TeamMemberIds(d.links, name))
  }

  /** A team's listing holds the stored user of every id linked to the team,
      and nothing else. */
  lemma TeamListing(d: Directory, name: TeamName)
    ensures forall id :: Link(name, id) in d.links && id in d.users ==> d.users[id] in GetUsersByTeamName(d, name)
    ensures forall u :: u in GetUsersByTeamName(d, name) ==>
      exists id :: Link(name, id) in d.links && id in d.users && d.users[id] == u
  {
  }

  function GetTeamsByUserID(d: Directory, id: UserId): seq<TeamName> {
    TeamsOf(d.links, id)
  }

  /** Team `name` with its stored members, or TeamNotFound. */
  function GetTeamByName(d: Directory, name: TeamName): (r: Result<Team, Error>)
    ensures r.Success? <==> name in d.teams
    ensures r.Success? ==> r.value.name == name && r.value.members == GetUsersByTeamName(d, name)
    ensures r.Failure? ==> r.error == TeamNotFound
  {
    if name in d.teams then Success(Team(name, GetUsersByTeamName(d, name))) else Failure(TeamNotFound)
  }

  /** Ids holding a reviewer row on `id`, in row order. */
  function ReviewerIds(owners: seq<RequestOwner>, id: PullRequestId): (ids: seq<UserId>)
    ensures |ids| <= |owners|
    ensures forall u :: u in ids <==> RequestOwner(u, id, Reviewer) in owners
    decreases |owners|
  {
    if owners == [] then []
    else
      (if owners[0].requestId == id && owners[0].role == Reviewer then [owners[0].userId] else [])
      + ReviewerIds(owners[1..], id)
  }

  /** The pull request `id` with its reviewers read off the ownership rows. */
  function GetPullRequestByID(s: State, id: PullRequestId): (r: Result<PullRequest, Error>)
    ensures r.Success? <==> id in s.pulls
    ensures r.Success? ==>
      && r.value.id == id
      && r.value.name == s.pulls[id].name
      && r.value.authorId == s.pulls[id].authorId
      && r.value.status == s.pulls[id].status
      && r.value.reviewers == ReviewerIds(s.owners, id)
    ensures r.Failure? ==> r.error == PullRequestNotFound
  {
    if id in s.pulls then
      var row := s.pulls[id];
      Success(PullRequest(id, row.name, row.authorId, row.status, ReviewerIds(s.owners, id)))
    else Failure(PullRequestNotFound)
  }

  function GetRequestsByUserID(s: State, id: UserId): seq<RequestOwner> {
    Filter((o: RequestOwner) => o.userId == id, s.owners)
  }

  function GetUsersByPullRequestID(s: State, id: PullRequestId): seq<RequestOwner> {
    Filter((o: RequestOwner) => o.requestId == id, s.owners)
  }

  lemma {:induction false} TeamMemberIdsConcat(a: seq<Link>, b: seq<Link>, name: TeamName)
    ensures TeamMemberIds(a + b, name) == TeamMemberIds(a, name) + TeamMemberIds(b, name)
    decreases |a|
  {
    if a == [] {
      assert a + b == b;
    } else {
      assert (a + b)[0] == a[0];
      assert (a + b)[1..] == a[1..] + b;
      TeamMemberIdsConcat(a[1..], b, name);
    }
  }

  /** When every id has a user, the listing is exactly those users in order. */
  lemma {:induction false} ResolveUsersAllPresent(users: map<UserId, User>, ids: seq<UserId>)
    requires forall i :: 0 <= i < |ids| ==> ids[i] in users
    ensures |ResolveUsers(users, ids)| == |ids|
    ensures forall i :: 0 <= i < |ids| ==> ResolveUsers(users, ids)[i] == users[ids[i]]
    decreases |ids|
  {
    if ids != [] {
      ResolveUsersAllPresent(users, ids[1..]);
    }
  }

  /** Resolving ids that are all stored, in a keyed user store, gives users
      carrying exactly those ids. */
  lemma ResolveKeyedIds(d: Directory, ids: seq<UserId>)
    requires Keyed(d)
    requires forall i :: 0 <= i < |ids| ==> ids[i] in d.users
    ensures Ids(ResolveUsers(d.users, ids)) == ids
  {
    ResolveUsersAllPresent(d.users, ids);
    var listed := ResolveUsers(d.users, ids);
    forall i | 0 <= i < |ids|
      ensures Ids(listed)[i] == ids[i]
    {
      assert listed[i] == d.users[ids[i]];
    }
  }

  lemma {:induction false} ReviewerIdsConcat(a: seq<RequestOwner>, b: seq<RequestOwner>, id: PullRequestId)
    ensures ReviewerIds(a + b, id) == ReviewerIds(a, id) + ReviewerIds(b, id)
    decreases |a|
  {
    if a == [] {
      assert a + b == b;
    } else {
      assert (a + b)[0] == a[0];
      assert (a + b)[1..] == a[1..] + b;
      ReviewerIdsConcat(a[1..], b, id);
    }
  }

  /** `ids` with every copy of `x` removed. */
  function Drop(ids: seq<UserId>, x: UserId): seq<UserId> {
    Filter((y: UserId) => y != x, ids)
  }

  /** Deleting every copy of `row` removes `row.userId` from the reviewers of
      `row.requestId` when `row` is a reviewer row, and changes no other
      reviewer list. */
  lemma {:induction false} ReviewerIdsWithout(owners: seq<RequestOwner>, row: RequestOwner, k: PullRequestId)
    ensures ReviewerIds(Without(owners, row), k) ==
      if row.requestId == k && row.role == Reviewer then Drop(ReviewerIds(owners, k), row.userId)
      else ReviewerIds(owners, k)
    decreases |owners|
  {
    if owners != [] {
      var o0, rest := owners[0], owners[1..];
      var kept := if o0 != row then [o0] else [];
      assert owners == [o0] + rest;
      assert Without(owners, row) == kept + Without(rest, row);
      ReviewerIdsConcat(kept, Without(rest, row), k);
      ReviewerIdsConcat([o0], rest, k);
      ReviewerIdsWithout(rest, row, k);
      if row.requestId == k && row.role == Reviewer {
        var head := ReviewerIds([o0], k);
        FilterConcat((y: UserId) => y != row.userId, head, ReviewerIds(rest, k));
        if o0 == row {
          assert Drop(head, row.userId) == [];
        } else if o0.requestId == k && o0.role == Reviewer {
          assert o0.userId != row.userId;
          assert Drop(head, row.userId) == head;
        }
      }
    }
  }

  /** The author rows on `id`, in row order. */
  function AuthorRows(owners: seq<RequestOwner>, id: PullRequestId): (rows: seq<RequestOwner>)
    ensures forall o :: o in rows <==> o in owners && o.requestId == id && o.role == Author
    decreases |owners|
  {
    if owners == [] then []
    else
      (if owners[0].requestId == id && owners[0].role == Author then [owners[0]] else [])
      + AuthorRows(owners[1..], id)
  }

  lemma {:induction false} AuthorRowsConcat(a: seq<RequestOwner>, b: seq<RequestOwner>, id: PullRequestId)
    ensures AuthorRows(a + b, id) == AuthorRows(a, id) + AuthorRows(b, id)
    decreases |a|
  {
    if a == [] {
      assert a + b == b;
    } else {
      assert (a + b)[0] == a[0];
      assert (a + b)[1..] == a[1..] + b;
      AuthorRowsConcat(a[1..], b, id);
    }
  }

  /** Rows of which none is an author row on `id` give `id` no author row. */
  lemma AuthorRowsNone(owners: seq<RequestOwner>, id: PullRequestId)
    requires forall o :: o in owners ==> o.requestId != id || o.role != Author
    ensures AuthorRows(owners, id) == []
  {
  }

  /** Appending one author row and then reviewer rows gives the new author
      row's pull request that row and leaves every other author row. */
  lemma AddedAuthorRows(owners: seq<RequestOwner>, author: RequestOwner, rows: seq<RequestOwner>, k: PullRequestId)
    requires author.role == Author
    requires forall o :: o in rows ==> o.role == Reviewer
    ensures AuthorRows(owners + [author] + rows, k) ==
      AuthorRows(owners, k) + (if k == author.requestId then [author] else [])
  {
    AuthorRowsConcat(owners + [author], rows, k);
    AuthorRowsConcat(owners, [author], k);
    AuthorRowsNone(rows, k);
  }

  /** Deleting a reviewer row leaves every author row in place. */
  lemma {:induction false} AuthorRowsWithout(owners: seq<RequestOwner>, row: RequestOwner, k: PullRequestId)
    requires row.role == Reviewer
    ensures AuthorRows(Without(owners, row), k) == AuthorRows(owners, k)
    decreases |owners|
  {
    if owners != [] {
      var o0, rest := owners[0], owners[1..];
      var kept := if o0 != row then [o0] else [];
      assert owners == [o0] + rest;
      assert Without(owners, row) == kept + Without(rest, row);
      AuthorRowsConcat(kept, Without(rest, row), k);
      AuthorRowsConcat([o0], rest, k);
      AuthorRowsWithout(rest, row, k);
    }
  }

  // ---------------------------------------------------------- invariants

  /** Every user is stored under its own id. */
  predicate Keyed(d: Directory) {
    forall k :: k in d.users ==> d.users[k].id == k
  }

  /** Referential integrity of the four stores. */
  predicate Valid(s: State) {
    && Keyed(s.directory)
    && (forall k :: k in s.pulls ==> s.pulls[k].id == k)
    && (forall l :: l in s.directory.links ==> l.team in s.directory.teams && l.userId in s.directory.users)
    && (forall o :: o in s.owners ==> o.requestId in s.pulls)
  }
}

=== FILE: team.dfy ===
/** The team engine: team creation with member reconciliation, and lookup. */
module TeamEngine {
  import opened Wrappers
  import opened Domain
  import opened Errors
  import opened Seqs
  import opened Store

  /** What the store holds for member `m` once it has been reconciled: a new
      user exactly as given, or the stored user with only the active flag
      taken from `m`. */
  function Reconciled(users: map<UserId, User>, m: User): (r: User)
    ensures r.isActive == m.isActive
    ensures m.id in users ==> r.id == users[m.id].id && r.username == users[m.id].username
    ensures m.id !in users ==> r == m
  {
    if m.id in users then users[m.id].(isActive := m.isActive) else m
  }

  /** The writes for one member: create it if missing, update its flag if it
      differs, then link it to the team. */
  function Enrol(s: State, team: TeamName, m: User): (ws: seq<Write>)
    ensures AllOnDirectory(ws)
    ensures m.id in s.directory.users && s.directory.users[m.id].isActive == m.isActive ==>
      forall i :: 0 <= i < |ws| ==> !ws[i].SaveUser? && !ws[i].UpdateUser?
    ensures Keyed(s.directory) ==>
      var d, d' := s.directory, ApplyAll(s, ws).directory;
      && d'.users == d.users[m.id := Reconciled(d.users, m)]
      && d'.teams == d.teams
      && d'.links == d.links + [Link(team, m.id)]
  {
    match GetUserByID(s.directory, m.id)
    case Failure(_) =>
      var created := User(m.id, m.username, m.isActive);
      [SaveUser(created), LinkUserToTeam(team, created.id)]
    case Success(user) =>
      if user.isActive != m.isActive then
        var updated := user.(isActive := m.isActive);
        [UpdateUser(updated), LinkUserToTeam(team, updated.id)]
      else [LinkUserToTeam(team, user.id)]
  }

  /** The writes for all members in input order, each seeing the effect of
      the ones before it. */
  function EnrolAll(s: State, team: TeamName, members: seq<User>): (ws: seq<Write>)
    ensures AllOnDirectory(ws)
    decreases |members|
  {
    if members == [] then []
    else
      var first := Enrol(s, team, members[0]);
      var rest := EnrolAll(ApplyAll(s, first), team, members[1..]);
      assert forall i :: 0 <= i < |first + rest| ==> OnDirectory((first + rest)[i]) by {
        forall i | 0 <= i < |first + rest| ensures OnDirectory((first + rest)[i]) {
          if i < |first| { assert (first + rest)[i] == first[i]; }
          else { assert (first + rest)[i] == rest[i - |first|]; }
        }
      }
      first + rest
  }

  /** One membership row per member, in input order. */
  function LinksOf(team: TeamName, members: seq<User>): seq<Link>
    decreases |members|
  {
    if members == [] then [] else [Link(team, members[0].id)] + LinksOf(team, members[1..])
  }

  /** Enrolling the first member and then the rest is enrolling them all,
      and the first member's writes keep the store keyed. */
  lemma EnrolFirst(s: State, team: TeamName, members: seq<User>)
    requires Keyed(s.directory)
    requires members != []
    ensures
      var s1 := ApplyAll(s, Enrol(s, team, members[0]));
      && Keyed(s1.directory)
      && ApplyAll(s, EnrolAll(s, team, members)) == ApplyAll(s1, EnrolAll(s1, team, members[1..]))
  {
    var m := members[0];
    var first := Enrol(s, team, m);
    var s1 := ApplyAll(s, first);
    var rest := EnrolAll(s1, team, members[1..]);
    assert EnrolAll(s, team, members) == first + rest;
    ApplyAllConcat(s, first, rest);
    var d := s.directory;
    assert s1.directory.users == d.users[m.id := Reconciled(d.users, m)];
    assert Reconciled(d.users, m).id == m.id;
  }

  /** Enrolling keeps every user stored under its own id. */
  lemma {:induction false} EnrolAllKeyed(s: State, team: TeamName, members: seq<User>)
    requires Keyed(s.directory)
    ensures Keyed(ApplyAll(s, EnrolAll(s, team, members)).directory)
    decreases |members|
  {
    if members != [] {
      var s1 := ApplyAll(s, Enrol(s, team, members[0]));
      EnrolFirst(s, team, members);
      EnrolAllKeyed(s1, team, members[1..]);
    }
  }

  /** Enrolling the members adds no team. */
  lemma {:induction false} EnrolAllTeams(s: State, team: TeamName, members: seq<User>)
    requires Keyed(s.directory)
    ensures ApplyAll(s, EnrolAll(s, team, members)).directory.teams == s.directory.teams
    decreases |members|
  {
    if members != [] {
      var s1 := ApplyAll(s, Enrol(s, team, members[0]));
      assert s1.directory.teams == s.directory.teams;
      EnrolFirst(s, team, members);
      EnrolAllTeams(s1, team, members[1..]);
    }
  }

  /** Enrolling the members appends one link per member, in input order; no
      team is added. */
  lemma {:induction false} EnrolAllLinks(s: State, team: TeamName, members: seq<User>)
    requires Keyed(s.directory)
    ensures
      var d, d' := s.directory, ApplyAll(s, EnrolAll(s, team, members)).directory;
      && d'.teams == d.teams
      && d'.links == d.links + LinksOf(team, members)
    decreases |members|
  {
    EnrolAllTeams(s, team, members);
    if members != [] {
      var s1 := ApplyAll(s, Enrol(s, team, members[0]));
      var head, tail := [Link(team, members[0].id)], LinksOf(team, members[1..]);
      assert s1.directory.links == s.directory.links + head;
      EnrolFirst(s, team, members);
      EnrolAllLinks(s1, team, members[1..]);
      assert LinksOf(team, members) == head + tail;
      assert s.directory.links + head + tail == s.directory.links + (head + tail);
    }
  }

  /** Enrolling the members stores every member and leaves every other user
      alone. */
  lemma {:induction false} EnrolAllUsers(s: State, team: TeamName, members: seq<User>)
    requires Keyed(s.directory)
    ensures
      var d, d' := s.directory, ApplyAll(s, EnrolAll(s, team, members)).directory;
      && (forall k :: k in d'.users <==> k in d.users || k in Ids(members))
      && (forall k :: k in d.users && k !in Ids(members) ==> d'.users[k] == d.users[k])
    decreases |members|
  {
    if members != [] {
      var m := members[0];
      var s1 := ApplyAll(s, Enrol(s, team, m));
      EnrolFirst(s, team, members);
      EnrolAllUsers(s1, team, members[1..]);
      assert forall k :: k in Ids(members) <==> k == m.id || k in Ids(members[1..]);
    }
  }

  /** With distinct input ids, each member ends up stored as its reconciled
      form. */
  lemma {:induction false} EnrolAllReconciles(s: State, team: TeamName, members: seq<User>)
    requires Keyed(s.directory)
    requires AllDistinct(Ids(members))
    ensures
      var d, d' := s.directory, ApplyAll(s, EnrolAll(s, team, members)).directory;
      forall i :: 0 <= i < |members| ==>
        members[i].id in d'.users && d'.users[members[i].id] == Reconciled(d.users, members[i])
    decreases |members|
  {
    if members != [] {
      var d := s.directory;
      var m := members[0];
      var s1 := ApplyAll(s, Enrol(s, team, m));
      EnrolFirst(s, team, members);
      var tail := members[1..];
      assert AllDistinct(Ids(tail)) by {
        forall i, j | 0 <= i < j < |tail| ensures Ids(tail)[i] != Ids(tail)[j] {
          assert Ids(tail)[i] == Ids(members)[i + 1];
          assert Ids(tail)[j] == Ids(members)[j + 1];
        }
      }
      assert m.id !in Ids(tail) by {
        forall j | 0 <= j < |tail| ensures Ids(tail)[j] != m.id {
          assert Ids(tail)[j] == Ids(members)[j + 1];
          assert Ids(members)[0] == m.id;
        }
      }
      EnrolAllUsers(s1, team, tail);
      EnrolAllReconciles(s1, team, tail);
      var d' := ApplyAll(s1, EnrolAll(s1, team, tail)).directory;
      forall i | 0 <= i < |members|
        ensures members[i].id in d'.users && d'.users[members[i].id] == Reconciled(d.users, members[i])
      {
        if i > 0 {
          assert members[i] == tail[i - 1];
          assert members[i].id != m.id by {
            assert Ids(members)[0] == m.id;
            assert Ids(members)[i] == members[i].id;
          }
          assert Reconciled(s1.directory.users, members[i]) == Reconciled(d.users, members[i]);
        }
      }
    }
  }

  /** CreateTeam. Input errors come first (nil team or empty name, then an
      empty member list), then an existing team; none of them writes. */
  function CreateTeam(s: State, team: Option<Team>, members: seq<User>): (o: Outcome<Team>)
    ensures team.None? || team.value.name == "" ==> o == Outcome([], Failure(InvalidTeamName))
    ensures team.Some? && team.value.name != "" && |members| == 0 ==> o == Outcome([], Failure(MemberNotFound))
    ensures team.Some? && team.value.name != "" && |members| > 0 && team.value.name in s.directory.teams ==>
      o == Outcome([], Failure(TeamAlreadyExists))
    ensures team.Some? && team.value.name != "" && |members| > 0 && team.value.name !in s.directory.teams ==>
      var name := team.value.name;
      && |o.writes| > 0
      && o.writes[0] == SaveTeam(name)
      && o.result == GetTeamByName(Post(s, o).directory, name)
  {
    if team.None? || team.value.name == "" then Outcome([], Failure(InvalidTeamName))
    else if |members| == 0 then Outcome([], Failure(MemberNotFound))
    else
      var name := team.value.name;
      match GetTeamByName(s.directory, name)
      case Success(_) => Outcome([], Failure(TeamAlreadyExists))
      case Failure(_) =>
        var ws := [SaveTeam(name)] + EnrolAll(Apply(s, SaveTeam(name)), name, members);
        Outcome(ws, GetTeamByName(ApplyAll(s, ws).directory, name))
  }

  /** GetTeam: any failure of the lookup is reported as TeamNotFound. */
  function GetTeam(d: Directory, name: TeamName): (r: Result<Team, Error>)
    ensures r.Success? <==> name in d.teams
    ensures r.Failure? ==> r.error == TeamNotFound
    ensures r.Success? ==> r.value == Team(name, GetUsersByTeamName(d, name))
  {
    match GetTeamByName(d, name)
    case Failure(_) => Failure(TeamNotFound)
    case Success(t) => Success(t)
  }

  /** Enrolling members into a team that has no links yet lists exactly
      those members, in input order, each reconciled with the store when the
      input ids are distinct. */
  lemma EnrolledListing(s: State, name: TeamName, members: seq<User>)
    requires Keyed(s.directory)
    requires TeamMemberIds(s.directory.links, name) == []
    ensures
      var d := ApplyAll(s, EnrolAll(s, name, members)).directory;
      var listed := GetUsersByTeamName(d, name);
      && Ids(listed) == Ids(members)
      && (AllDistinct(Ids(members)) ==>
            forall i :: 0 <= i < |members| ==> listed[i] == Reconciled(s.directory.users, members[i]))
  {
    var d := ApplyAll(s, EnrolAll(s, name, members)).directory;
    var ids := Ids(members);
    EnrolledLinks(s, name, members);
    EnrolAllKeyed(s, name, members);
    EnrolAllUsers(s, name, members);
    assert forall i :: 0 <= i < |ids| ==> ids[i] in d.users;
    KeyedListing(d, name, ids);
    if AllDistinct(ids) {
      EnrolAllReconciles(s, name, members);
    }
  }

  /** A team with no links before the loop is linked to exactly the input
      ids afterwards, in input order. */
  lemma EnrolledLinks(s: State, name: TeamName, members: seq<User>)
    requires Keyed(s.directory)
    requires TeamMemberIds(s.directory.links, name) == []
    ensures TeamMemberIds(ApplyAll(s, EnrolAll(s, name, members)).directory.links, name) == Ids(members)
  {
    EnrolAllLinks(s, name, members);
    LinksOfMembers(name, members);
    TeamMemberIdsConcat(s.directory.links, LinksOf(name, members), name);
    assert [] + Ids(members) == Ids(members);
  }

  /** In a keyed directory whose team links name only stored ids, the team
      listing is the stored user of each linked id, in link order. */
  lemma KeyedListing(d: Directory, name: TeamName, ids: seq<UserId>)
    requires Keyed(d)
    requires TeamMemberIds(d.links, name) == ids
    requires forall i :: 0 <= i < |ids| ==> ids[i] in d.users
    ensures Ids(GetUsersByTeamName(d, name)) == ids
    ensures forall i :: 0 <= i < |ids| ==> GetUsersByTeamName(d, name)[i] == d.users[ids[i]]
  {
    ResolveKeyedIds(d, ids);
    ResolveUsersAllPresent(d.users, ids);
  }

  /** Creating a team and then looking it up gives back the input members, in
      input order, each reconciled with the store when the input ids are
      distinct; the pull request stores are untouched. */
  lemma CreateThenGetTeam(s: State, team: Team, members: seq<User>)
    requires Valid(s)
    requires team.name != "" && |members| > 0 && team.name !in s.directory.teams
    ensures
      var o := CreateTeam(s, Some(team), members);
      var post := Post(s, o);
      && o.result.Success?
      && GetTeam(post.directory, team.name) == o.result
      && Ids(o.result.value.members) == Ids(members)
      && (AllDistinct(Ids(members)) ==>
            forall i :: 0 <= i < |members| ==> o.result.value.members[i] == Reconciled(s.directory.users, members[i]))
      && post.pulls == s.pulls
      && post.owners == s.owners
  {
    var name := team.name;
    var o := CreateTeam(s, Some(team), members);
    var s1 := Apply(s, SaveTeam(name));
    var rest := EnrolAll(s1, name, members);
    assert o.writes == [SaveTeam(name)] + rest;
    ApplyAllConcat(s, [SaveTeam(name)], rest);
    assert ApplyAll(s, [SaveTeam(name)]) == s1;
    var post := ApplyAll(s1, rest);
    assert Post(s, o) == post;
    assert s1.directory.links == s.directory.links;
    NoLinksOutsideTeams(s.directory.links, s.directory.teams, name);
    EnrolAllLinks(s1, name, members);
    EnrolAllKeyed(s1, name, members);
    EnrolledListing(s1, name, members);
  }

  /** A name that is not a team has no membership rows in a valid store. */
  lemma {:induction false} NoLinksOutsideTeams(links: seq<Link>, teams: set<TeamName>, name: TeamName)
    requires forall l :: l in links ==> l.team in teams
    requires name !in teams
    ensures TeamMemberIds(links, name) == []
    decreases |links|
  {
    if links != [] {
      assert links[0] in links;
      NoLinksOutsideTeams(links[1..], teams, name);
    }
  }

  /** Every link enrolling makes names the team and one of the members. */
  lemma {:induction false} LinksOfShape(team: TeamName, members: seq<User>)
    ensures forall l :: l in LinksOf(team, members) ==> l.team == team && l.userId in Ids(members)
    decreases |members|
  {
    if members != [] {
      LinksOfShape(team, members[1..]);
      assert forall k :: k in Ids(members[1..]) ==> k in Ids(members) by {
        forall k | k in Ids(members[1..]) ensures k in Ids(members) {
          var j :| 0 <= j < |members[1..]| && Ids(members[1..])[j] == k;
          assert Ids(members)[j + 1] == k;
        }
      }
      assert Ids(members)[0] == members[0].id;
    }
  }

  lemma {:induction false} LinksOfMembers(team: TeamName, members: seq<User>)
    ensures TeamMemberIds(LinksOf(team, members), team) == Ids(members)
    decreases |members|
  {
    if members != [] {
      var links := LinksOf(team, members);
      assert links[0] == Link(team, members[0].id);
      assert links[1..] == LinksOf(team, members[1..]);
      LinksOfMembers(team, members[1..]);
    }
  }
}

=== FILE: user.dfy ===
/** The user engine: the active flag toggle and the reviewer's pull request
    listing. */
module UserEngine {
  import opened Wrappers
  import opened Domain
  import opened Errors
  import opened Store

  /** SetActive: the stored user takes the requested flag and keeps its id
      and username; a missing user is MemberNotFound and nothing is written. */
  function SetActive(s: State, id: UserId, active: bool): (o: Outcome<User>)
    ensures id !in s.directory.users ==> o == Outcome([], Failure(MemberNotFound))
    ensures id in s.directory.users ==>
      var before := s.directory.users[id];
      && o.result.Success?
      && o.result.value.isActive == active
      && o.result.value.id == before.id
      && o.result.value.username == before.username
      && o.writes == [UpdateUser(o.result.value)]
      && (Keyed(s.directory) ==>
            Post(s, o) == s.(directory := s.directory.(users := s.directory.users[id := o.result.value])))
  {
    match GetUserByID(s.directory, id)
    case Failure(_) => Outcome([], Failure(MemberNotFound))
    case Success(user) =>
      var updated := user.(isActive := active);
      Outcome([UpdateUser(updated)], Success(updated))
  }

  /** Repeating SetActive with the same flag returns the same user and leaves
      the store as the first call left it. */
  lemma SetActiveIdempotent(s: State, id: UserId, active: bool)
    requires Keyed(s.directory)
    ensures
      var o1 := SetActive(s, id, active);
      var s1 := Post(s, o1);
      var o2 := SetActive(s1, id, active);
      && o2.result == o1.result
      && Post(s1, o2) == s1
  {
    var o1 := SetActive(s, id, active);
    var s1 := Post(s, o1);
    if id in s.directory.users {
      assert s1.directory.users[id] == o1.result.value;
      assert Keyed(s1.directory);
      var o2 := SetActive(s1, id, active);
      assert o2.result.value == o1.result.value;
      assert s1.directory.users[id := o2.result.value] == s1.directory.users;
    }
  }

  /** The pull request ids of the reviewer rows among `rows`, in row order. */
  function ReviewedIds(rows: seq<RequestOwner>): (ids: seq<PullRequestId>)
    ensures |ids| <= |rows|
    ensures forall k :: k in ids <==> exists u :: RequestOwner(u, k, Reviewer) in rows
    decreases |rows|
  {
    if rows == [] then []
    else (if rows[0].role == Reviewer then [rows[0].requestId] else []) + ReviewedIds(rows[1..])
  }

  /** The ids of a list of pull requests, position by position. */
  function PullIds(prs: seq<PullRequest>): (ids: seq<PullRequestId>)
    ensures |ids| == |prs|
    ensures forall i :: 0 <= i < |prs| ==> ids[i] == prs[i].id
    decreases |prs|
  {
    if prs == [] then [] else [prs[0].id] + PullIds(prs[1..])
  }

  /** Every reviewer row among `rows` names a stored pull request. */
  predicate Resolvable(s: State, rows: seq<RequestOwner>) {
    forall o :: o in rows && o.role == Reviewer ==> o.requestId in s.pulls
  }

  /** Resolves the reviewer rows in order; the first row whose pull request
      cannot be read aborts the whole listing. Author rows are skipped. */
  function ResolveReviewerRows(s: State, rows: seq<RequestOwner>): (r: Result<seq<PullRequest>, Error>)
    ensures r.Success? <==> Resolvable(s, rows)
    ensures r.Success? ==> PullIds(r.value) == ReviewedIds(rows)
    ensures r.Success? ==> forall i :: 0 <= i < |r.value| ==> GetPullRequestByID(s, r.value[i].id) == Success(r.value[i])
    ensures r.Failure? ==> Is(r.error, PullRequestNotFound)
    decreases |rows|
  {
    if rows == [] then Success([])
    else if rows[0].role != Reviewer then ResolveReviewerRows(s, rows[1..])
    else
      match GetPullRequestByID(s, rows[0].requestId)
      case Failure(e) => Failure(Joined(PullRequestNotFound, e))
      case Success(pr) =>
        match ResolveReviewerRows(s, rows[1..])
        case Failure(e) => Failure(e)
        case Success(prs) => Success([pr] + prs)
  }

  /** GetUserPullRequests: the pull requests `id` reviews, in row order. */
  function GetUserPullRequests(s: State, id: UserId): (r: Result<seq<PullRequest>, Error>)
    ensures id !in s.directory.users ==> r == Failure(MemberNotFound)
    ensures id in s.directory.users ==>
      && (r.Success? <==> Resolvable(s, GetRequestsByUserID(s, id)))
      && (r.Failure? ==> Is(r.error, PullRequestNotFound))
    ensures r.Success? ==>
      && PullIds(r.value) == ReviewedIds(GetRequestsByUserID(s, id))
      && |r.value| <= |GetRequestsByUserID(s, id)|
      && forall i :: 0 <= i < |r.value| ==> GetPullRequestByID(s, r.value[i].id) == Success(r.value[i])
  {
    match GetUserByID(s.directory, id)
    case Failure(_) => Failure(MemberNotFound)
    case Success(_) => ResolveReviewerRows(s, GetRequestsByUserID(s, id))
  }

  /** Among rows that all belong to `id`, the reviewed ids are exactly the
      pull requests `id` holds a reviewer row on. */
  lemma {:induction false} ReviewedIdsOfOwnRows(rows: seq<RequestOwner>, id: UserId, pid: PullRequestId)
    requires forall o :: o in rows ==> o.userId == id
    ensures pid in ReviewedIds(rows) <==> RequestOwner(id, pid, Reviewer) in rows
    decreases |rows|
  {
    if rows != [] {
      assert rows[0] in rows;
      assert forall o :: o in rows[1..] ==> o in rows;
      ReviewedIdsOfOwnRows(rows[1..], id, pid);
      assert rows == [rows[0]] + rows[1..];
      assert rows[0] == RequestOwner(id, rows[0].requestId, rows[0].role);
    }
  }

  /** The user's listing and the pull requests' reviewer lists agree: a pull
      request is listed for `id` exactly when `id` is among its reviewers. */
  lemma UserPullRequestsMatchReviewers(s: State, id: UserId)
    requires GetUserPullRequests(s, id).Success?
    ensures forall pid :: pid in PullIds(GetUserPullRequests(s, id).value) <==> id in ReviewerIds(s.owners, pid)
  {
    var rows := GetRequestsByUserID(s, id);
    forall pid
      ensures pid in ReviewedIds(rows) <==> RequestOwner(id, pid, Reviewer) in s.owners
    {
      ReviewedIdsOfOwnRows(rows, id, pid);
    }
  }
}

=== FILE: wrappers.dfy ===
/** Carriers for the engine's nil pointers and its (value, error) returns. */
module Wrappers {

  /** A possibly-nil input, such as the `*domain.PullRequest` a caller hands in. */
  datatype Option<+T> = None | Some(value: T)

  /** Either a value or the error that replaced it. */
  datatype Result<+T, +E> = Success(value: T) | Failure(error: E)
}
